=== FILE: README.md ===
# Movie explorer: a Dafny model of the catalog client's core

The movie explorer is a browser client for a remote movie catalog. Its core is the
**movie context**. This is a query coordinator that keeps one list of movies on screen and
feeds it from three places: a free-text search, a structured discover query (genre,
release year, minimum rating), and a local restriction of filtered results by the search
text. The core also includes the following:

- a persisted key/value store (favourites, last search, signed-in user, theme)
- a debouncer in front of the search
- the builder of the remote query parameters
- the home page's selectors (what the grid shows, its title, whether "load more" is offered)
- the filter panel
- the details page's trailer choice, runtime badge and favourite heart
- the demo authentication state and the colour theme

The model is written in terms of states and transitions. Each asynchronous operation is
one atomic step: `Op(state, store, ..., outcome) -> Step(state', store', call)`. It works
like this:

- the **remote outcome** (`Fetch.Ok(value)` or `Fetch.Err`) is a parameter, so every
  success and every failure path is covered;
- the **remote call** the operation issued (`Api.RemoteCall`) is part of the result, so
  contracts say which endpoint is requested with which arguments, and when no request is
  made;
- the **store** is a `map<string, Value>` of typed values under the four application keys.

Filter options are three-valued per field: `Absent` (no key), `PresentUndefined` (key
holding `undefined`) and `Val(n)`. This matters because two different "filters active"
tests are in play:

- the coordinator asks whether the options object **has any key** (`Types.HasKeys`);
- the home page and the filter panel ask whether **some value is defined**
  (`Types.SomeDefined`).

Files, one module each:

- `wrappers.dfy`: `Option` and `Fetch`.
- `seqs.dfy`: filtering, first-match search and duplicate-freedom on sequences.
- `text.dfy`: JavaScript `trim`, ASCII lower-casing, `includes`, and decimal rendering of
  integers.
- `types.dfy`: movies, genres, details, search responses, filter options, videos and users.
- `storage.dfy`: the persisted store.
- `debounce.dfy`: the debouncer, with a reference definition of what it fires.
- `api.dfy`: remote calls, paths and query parameters.
- `movie_context.dfy`: the coordinator.
- `home_page.dfy`, `filter_panel.dfy`, `movie_details.dfy`: page and panel logic.
- `auth.dfy` and `theme.dfy`: the authentication and theme contexts.

### Where the code and the documented behaviour differ

The model follows the code.

- No request tokens or staleness checks exist. A late response is applied like any other.
  Each step of the model is atomic, so interleavings are not modelled (see Left out).
- Appended results are not de-duplicated: a movie that appears on two pages is listed
  twice. After a successful fetch the page counter is the page that
  was requested and the page total is taken verbatim from the response. Nothing enforces
  `currentPage <= totalPages`.
- A blank query does not clear the unfiltered-search snapshot. Clearing filters after a
  blank query shows `[]` only because the query is blank.
- The coordinator's "filters active" means "the options object has a key". The panel
  commits its options only on "apply". Touching a select, clearing it again and applying
  therefore leaves the coordinator in filter mode, while the page, with a blank search
  text, shows the trending list (`HomePage.ActiveTestsDiverge`). Only "clear" returns the options to `{}`.
- The start-up search tests the restored text for emptiness, not blankness. A stored
  whitespace-only search takes the blank branch, which saves `''` over it
  (`MovieContext.StoredBlankSearchErased`).
- The local restriction tests the search text for blankness after trimming, but matches
  titles against the untrimmed text (`MovieContext.UntrimmedRestriction`).
- "Load more" tests the raw search text for emptiness, not the trimmed text. A
  whitespace-only search text with no filter keys therefore leads into the blank branch of
  the search handler, which empties the list (`MovieContext.LoadMoreMovies`). The page
  never offers the control in that state (`HomePage.BlankLoadMoreHidden`), so the branch
  is reachable only by calling the coordinator directly.
- "Apply" in the filter panel commits the options before the discover request succeeds.
  A failed request leaves filter mode on over a stale list; see Findings.

## Model

| member | source | states |
|---|---|---|
| Storage.GetFavorites | src/utils/storage.ts:10-13 | The stored id list, or the empty list when the favourites key is absent. |
| Storage.AddFavorite | src/utils/storage.ts:15-21 | An id already present leaves the store unchanged. Otherwise the id is appended to the stored list. Afterwards the id is a favourite, and every other key is untouched. |
| Storage.AddFavoriteIdempotent | src/utils/storage.ts:15-21 | Adding the same id twice has the effect of adding it once. |
| Storage.RemoveFavorite | src/utils/storage.ts:23-27 | Afterwards the id is not a favourite. Every other id keeps its membership. The new list is a subsequence of the old one. Other keys are untouched. |
| Storage.RemoveFavoriteKeepsOthers | src/utils/storage.ts:23-27 | Removal keeps the exact number of occurrences of every other id. |
| Storage.FavoritesStayDistinct | src/utils/storage.ts:15-27 | Adding and removing both keep a duplicate-free favourites list duplicate-free. |
| Storage.IsFavorite | src/utils/storage.ts:29-32 | An id is a favourite exactly when the store holds an id list under the favourites key and the id is in it. |
| Storage.GetLastSearch | src/utils/storage.ts:35-37 | The stored text, or the empty string when no last search is stored. |
| Storage.SaveLastSearch | src/utils/storage.ts:39-41 | Reading back gives the saved text. Only the last-search key changes. |
| Storage.SaveUser | src/utils/storage.ts:44-46 | Reading back gives the saved user. Only the user key changes. |
| Storage.GetUser | src/utils/storage.ts:48-51 | The stored user, or no user when the key is absent. |
| Storage.RemoveUser | src/utils/storage.ts:53-55 | The user key is gone and reads as no user. Only that key changes. |
| Storage.GetTheme | src/utils/storage.ts:58-60 | The stored non-empty theme, else `dark`. The result is never empty. |
| Storage.SaveTheme | src/utils/storage.ts:62-64 | A non-empty theme reads back as saved. Only the theme key changes. |
| Debounce.Step | src/utils/debounce.ts:7-15 | A call never fires and replaces the pending query with its own. An elapsed wait fires the pending query and leaves nothing pending. |
| Debounce.RunFires | src/utils/debounce.ts:1-16 | From any slot, the queries fired over a trace are the initially pending query (when the trace opens with an elapse) followed by the reference sequence: every call directly followed by an elapse. |
| Debounce.RunFromIdle | src/utils/debounce.ts:1-16 | A fresh debounced function fires exactly the reference sequence. |
| Debounce.PendingIsLastCall | src/utils/debounce.ts:8-14 | After a trace, a timer is pending exactly when the last event was a call, and it carries that call's query. |
| Debounce.FiresAtMostOncePerCall | src/utils/debounce.ts:7-15 | At most every second event fires the wrapped function. |
| Api.SearchParams | src/services/api.ts:16-22 | The search sends exactly `query`, `page` and `include_adult=false`. |
| Api.DiscoverParams | src/services/api.ts:80-100 | Discover always sends the page, `include_adult=false` and `sort_by=popularity.desc`. Each of genre, year and minimum rating is sent, with its value, exactly when it is truthy (defined and not 0). No other key is sent. |
| Api.UnfilteredDiscover | src/services/api.ts:80-100 | Whenever none of genre, year and minimum rating is truthy (each absent or 0), discover sends exactly the page, `include_adult=false` and `sort_by=popularity.desc`. |
| Api.DiscoverExample | src/services/api.ts:86-100 | Genre 28, year 2020 and rating 7 on page 1 produce the six expected parameters. |
| Api.Params | src/services/api.ts:14-35 | Exactly the search, trending and discover calls send a page parameter. |
| Api.Path | src/services/api.ts:42-60 | Every path starts with `/`. A details or videos request writes the movie id in decimal right after `/movie/`, and for a non-negative id those digits read back as the id. A videos path ends in `/videos`. |
| Types.ActivePredicates | src/types/movie.ts:83-87 | Some defined value implies some key. Having a key is the same as not being the empty options object. Options whose keys all hold `undefined` have keys but no defined value. |
| Text.Trim | src/contexts/MovieContext.tsx:97 | The result is a contiguous piece of the input with only whitespace before and after it. It is empty exactly when the input is all JavaScript whitespace. A non-empty result starts and ends with a non-space, so exactly the leading and trailing whitespace is removed. |
| Text.Lower | src/contexts/MovieContext.tsx:81 | Keeps the length, maps every upper-case ASCII letter to lower case, and leaves every other character alone. |
| Text.LowerIdempotent | src/contexts/MovieContext.tsx:81 | Lower-casing twice has the effect of lower-casing once. |
| Text.IncludesTrivial | src/contexts/MovieContext.tsx:80-82 | Every text includes the empty text and itself. |
| Text.NatToStringRoundTrip | src/pages/HomePage.tsx:45 | The decimal rendering of a natural number reads back as that number. |
| Text.IntToString | src/pages/HomePage.tsx:45 | The rendering is non-empty, starts with `-` exactly for negative numbers, and its digits read back as the absolute value. |
| Text.Join | src/pages/HomePage.tsx:64 | Joining no parts gives the empty text and one part gives that part. With more parts the result starts with the first part and the separator. |
| Text.JoinSnoc | src/pages/HomePage.tsx:64 | Joining one more part appends the separator and that part, so a join is its parts in order with the separator between each neighbouring pair. |
| Text.JoinFew | src/pages/HomePage.tsx:64 | Two parts join as `a + sep + b`, three as `a + sep + b + sep + c`. |
| Seqs.Without | src/utils/storage.ts:25 | The result holds exactly the elements different from the removed value, in order and with every copy of them kept. |
| MovieContext.Init | src/contexts/MovieContext.tsx:38-51 | On mount, the search text is the stored last search and the favourites are the stored list. There are no filters, page 1 of 1, nothing shown, no error, and nothing pending in the debouncer. |
| MovieContext.Restrict | src/contexts/MovieContext.tsx:80-82 | The restriction holds exactly the movies whose lower-cased title includes the lower-cased text, as a subsequence of the input. Every matching movie keeps its number of copies, and every other movie has none. |
| MovieContext.RestrictEmptyQuery | src/contexts/MovieContext.tsx:80-82 | Restricting by the empty text keeps every movie. |
| MovieContext.RestrictIdempotent | src/contexts/MovieContext.tsx:80-82 | Restricting twice by the same text has the effect of restricting once. |
| MovieContext.RestrictAppend | src/contexts/MovieContext.tsx:246-256 | Restricting an appended page gives the restricted old pages followed by the restricted new page. |
| MovieContext.UntrimmedRestriction | src/contexts/MovieContext.tsx:78-82 | A text with a leading space followed by a non-space counts as an active search. It still matches no title without spaces, because the match uses the untrimmed text. |
| MovieContext.FilteredView | src/contexts/MovieContext.tsx:252-260 | Without an active search the filtered pages are shown as they are. With one, exactly the matching filtered movies are shown, in order and with every copy kept. |
| MovieContext.FilteredViewAppend | src/contexts/MovieContext.tsx:246-260 | Viewing an appended filter page leaves everything shown before in place and appends the view of the new page. |
| MovieContext.Reconcile | src/contexts/MovieContext.tsx:76-91 | The effect changes only the shown list, and afterwards the state is settled (the shown list is the view of the filtered pages whenever filters are active). Without filters it changes nothing. |
| MovieContext.ReconcileFixpoint | src/contexts/MovieContext.tsx:76-91 | The effect leaves a state unchanged exactly when the state is settled. Running it twice has the effect of running it once. |
| MovieContext.Accumulate | src/contexts/MovieContext.tsx:129-136 | Page 1 replaces the list. Any other page keeps the old list as a prefix and puts the page right after it. |
| MovieContext.SearchMoviesHandler | src/contexts/MovieContext.tsx:93-147 | Covers every branch. Only the shown list, the snapshot, the counters, loading and error can change. A blank text makes no call and saves `''`; with filters it shows the filtered pages, otherwise nothing on page 1 of 1. A text with filters restricts locally without a call. Otherwise the search is requested. On success, page 1 replaces and later pages append, in the shown list and the snapshot alike, the page counter becomes the requested page, the page total follows the response and the text is saved. On failure only the error and loading change, and the store is untouched. |
| MovieContext.HandlerAgreesWithEffect | src/contexts/MovieContext.tsx:76-120 | With filters active, searching for the current text makes no call and shows exactly what the reconciliation effect shows, for both blank and non-blank text. |
| MovieContext.SetSearchQuery | src/contexts/MovieContext.tsx:157-161 | The text is stored and becomes the debouncer's pending query, with no call now. A changed text leaves the state settled. Without filters the shown list is left alone. Nothing else changes. |
| MovieContext.SearchTimerElapsed | src/contexts/MovieContext.tsx:149-155 | When the wait runs out, the debouncer is idle again. Nothing happens if nothing was pending. Otherwise the only call that can be issued is a search for the pending text on page 1, and it is issued when the text is non-blank and no filters are active. |
| MovieContext.MountSearch | src/contexts/MovieContext.tsx:67-73 | On mount, an empty restored text starts no search. A non-blank one without filters requests page 1 of the search. A whitespace-only one makes no call and leaves `''` stored. |
| MovieContext.StoredBlankSearchErased | src/contexts/MovieContext.tsx:44-73 | After a reload with a stored whitespace-only search, the start-up search makes no call and shows nothing. The store then holds `''`, while the search box keeps the whitespace. |
| MovieContext.TypingThenPause | src/contexts/MovieContext.tsx:149-161 | Typing several texts in a row and then pausing searches for the last text only, on page 1. |
| MovieContext.TypeAllPending | src/contexts/MovieContext.tsx:157-161 | After typing a sequence of texts, the search text and the pending query are both the last text. |
| MovieContext.TypeAllKeepsFilters | src/contexts/MovieContext.tsx:157-161 | Typing never changes the filter options. |
| MovieContext.ApplyFilters | src/contexts/MovieContext.tsx:223-270 | Discover is requested with the given options, or with the context's own options when none are given. On success the filtered pages accumulate, the shown list becomes their view under the current text (so the effect has nothing left to do), the page counter becomes the requested page, the page total follows the response, and nothing else changes. On failure only the error and loading change. |
| MovieContext.LoadMoreMovies | src/contexts/MovieContext.tsx:163-177 | Does nothing without a further page or while loading. With filters, it requests the next discover page with the context's options. With a non-blank text and no filters, it requests the next search page. With an empty text it does nothing. A whitespace-only text without filter keys empties the list. |
| MovieContext.LoadMoreAppends | src/contexts/MovieContext.tsx:163-177 | From a settled state, a successful "load more" advances the page by one and keeps everything shown before in place. In the search dimension it appends exactly the new page. |
| MovieContext.LoadMoreFailureKeepsResults | src/contexts/MovieContext.tsx:163-177 | A failed "load more" leaves the shown list, both caches and both counters as they were, and records an error. |
| MovieContext.ClearFilters | src/contexts/MovieContext.tsx:272-285 | Clearing drops the options and the filtered pages and resets to page 1 of 1. It shows the unfiltered snapshot if a search is active and nothing otherwise. The result is settled, and nothing else changes. |
| MovieContext.ClearRestoresSearch | src/contexts/MovieContext.tsx:272-285 | A plain search, then filters applied, then cleared: the search's results come back without a new call. |
| MovieContext.FetchTrendingMovies | src/contexts/MovieContext.tsx:194-207 | The trending endpoint is requested. Success replaces only the trending list. Failure sets only the error. |
| MovieContext.FetchMovieDetails | src/contexts/MovieContext.tsx:179-192 | The details endpoint is requested. Success replaces the selected movie and clears the error. Failure keeps it and sets the error. Loading ends off, and nothing else in the state or the store changes. |
| MovieContext.LoadGenres | src/contexts/MovieContext.tsx:53-64 | The genre list is requested. Success replaces the genres. Failure changes nothing. |
| MovieContext.CheckIsFavorite | src/contexts/MovieContext.tsx:219-221 | An id is a favourite exactly when it occurs in the in-memory list. |
| MovieContext.FavoriteChecksAgree | src/contexts/MovieContext.tsx:209-221 | With memory and store in step, the in-memory test and the stored test agree. |
| MovieContext.ToggleFavorite | src/contexts/MovieContext.tsx:209-217 | A stored favourite is removed from both store and memory. Any other id is appended to both. Memory and store stay equal and duplicate-free, membership flips, and nothing else changes. |
| MovieContext.ToggleTwice | src/contexts/MovieContext.tsx:209-217 | Toggling a non-favourite twice restores the exact state and stored list. |
| HomePage.HasActiveFilters | src/pages/HomePage.tsx:36 | The page counts filters as active exactly when some field holds a value. Then the coordinator counts them as active too. |
| HomePage.ShowLoadMore | src/pages/HomePage.tsx:110 | The grid's `showLoadMore` prop is set exactly when the page shows results: under the coordinator's list, never under the trending list. |
| HomePage.BlankLoadMoreHidden | src/pages/HomePage.tsx:36-40 | Without filter keys and with a blank search text the `showLoadMore` prop is not set, so the control is not offered. |
| HomePage.MoviesToDisplay | src/pages/HomePage.tsx:80-85 | The coordinator's list while a search or a filter value is active, and the trending list otherwise. |
| HomePage.GenreName | src/pages/HomePage.tsx:43-46 | The name of the first genre with the id. When no genre has it, `Genre: <id>`. |
| HomePage.FilterParts | src/pages/HomePage.tsx:49-63 | One part per defined field, in the order genre, year, rating, each with its label. |
| HomePage.FilterTitle | src/pages/HomePage.tsx:49-65 | `Filtered Movies (...)`. Empty parentheses when nothing is defined. The single part when only one field is defined. |
| HomePage.FilterTitleExact | src/pages/HomePage.tsx:49-65 | With two or three fields defined, the title lists their parts in order, separated by `, `. |
| HomePage.GridTitle | src/pages/HomePage.tsx:68-77 | The four cases: search and filter, search only, filter only, trending. |
| HomePage.TitleMatchesList | src/pages/HomePage.tsx:68-110 | The title is "Trending This Week" exactly when the trending list is shown, and exactly when no "load more" control is offered. |
| HomePage.ActiveTestsDiverge | src/pages/HomePage.tsx:36-40 | For options with a key but no defined value and a blank text, the coordinator counts filters as active while the page shows the trending list. The two tests agree on the search text. |
| FilterPanel.ActiveBadge | src/components/FilterPanel.tsx:13 | The badge shows exactly when some committed field holds a value. Then the coordinator is in filter mode. Options whose keys all hold `undefined` show no badge although the coordinator is in filter mode. |
| FilterPanel.Selected | src/components/FilterPanel.tsx:38 | An empty choice stores an explicit `undefined`. A value is stored as that value. |
| FilterPanel.ChangeGenre | src/components/FilterPanel.tsx:37-40 | Only the genre field changes, to the choice. |
| FilterPanel.ChangeYear | src/components/FilterPanel.tsx:42-45 | Only the year field changes, to the choice. |
| FilterPanel.ChangeRating | src/components/FilterPanel.tsx:47-50 | Only the rating field changes, to the choice. |
| FilterPanel.TouchedPanelHasKeys | src/components/FilterPanel.tsx:37-50 | Once any select has been changed, the options have a key, even if the choice was cleared. |
| FilterPanel.Apply | src/components/FilterPanel.tsx:52-56 | The local options become the coordinator's options, and discover page 1 is requested with them, whatever the outcome. On success the results are the filtered pages, shown through the current text, on page 1 with the response's page total, loading off and no error. On failure only the options, loading and the error change. Nothing else in the state or the store changes. |
| FilterPanel.LoadMoreAfterFailedApply | src/components/FilterPanel.tsx:52-56 | A failed "apply" turns filter mode on over the old list, which is then unsettled. A following successful "load more" with no filtered pages and an empty next page leaves nothing of what was shown. |
| FilterPanel.ApplyCommitOnSuccess | src/components/FilterPanel.tsx:52-56 | The corrected "apply": success is the same as "apply". Failure changes only loading and the error and keeps the old options. Either way a settled state stays settled. |
| FilterPanel.CommittedApplyThenLoadMore | src/contexts/MovieContext.tsx:163-177 | After the corrected "apply", a successful "load more" keeps everything shown before. |
| FilterPanel.Clear | src/components/FilterPanel.tsx:58-62 | The local options become `{}` and the coordinator's filters are cleared to page 1 of 1. |
| FilterPanel.Years | src/components/FilterPanel.tsx:65-66 | The choices run from the current year down to 1900, one per year, strictly decreasing. The list is empty when the year is before 1900. |
| FilterPanel.RatingChoices | src/components/FilterPanel.tsx:166 | Nine strictly decreasing choices, exactly 1 to 9. |
| MovieDetailsPage.GetTrailer | src/pages/MovieDetailsPage.tsx:56-71 | Picks the first official YouTube trailer, else the first YouTube trailer, else the first YouTube video. Nothing exactly when there is no YouTube video. |
| MovieDetailsPage.JsRemainder | src/pages/MovieDetailsPage.tsx:172 | For a non-negative dividend, the Euclidean remainder. For a negative one, the negated remainder of its magnitude, so the result takes the dividend's sign and is smaller in magnitude than the divisor. |
| MovieDetailsPage.RuntimeShown | src/pages/MovieDetailsPage.tsx:168-175 | No badge exactly for runtime 0. For a positive runtime, hours and minutes (0 to 59) add back up to it. |
| MovieDetailsPage.RuntimeText | src/pages/MovieDetailsPage.tsx:171-173 | The badge text is the hours' digits, `h `, the minutes' digits and `m`. For non-negative numbers the two digit runs read back as the hours and the minutes. |
| MovieDetailsPage.NegativeRuntime | src/pages/MovieDetailsPage.tsx:172 | A runtime of -61 renders as -2 h and -1 min, which does not add back up. |
| MovieDetailsPage.FavoriteFlag | src/pages/MovieDetailsPage.tsx:20 | The heart is off for id 0. Otherwise it shows membership in the favourites. |
| MovieDetailsPage.HeartClick | src/pages/MovieDetailsPage.tsx:20-139 | The heart shows the route id's state, but the click toggles the selected movie's id. When the two ids agree (and memory and store are in step) the heart flips. When they differ the heart stays as it was. |
| Auth.FindDemoUser | src/contexts/AuthContext.tsx:51 | Finds a demo account exactly for a demo username, and the account found has that name. |
| Auth.Init | src/contexts/AuthContext.tsx:33-40 | After mount, the user is the stored user, loading is off and there is no error. |
| Auth.Login | src/contexts/AuthContext.tsx:42-64 | Succeeds exactly for a demo username with the demo password, signing in that account and persisting only the user key. Otherwise it records "Invalid username or password" and changes neither the user nor the store. Loading ends off either way. |
| Auth.Register | src/contexts/AuthContext.tsx:66-94 | A demo username is refused with "Username already exists" and nothing else changes. Any other name signs in a new account with id `DEMO_USERS.length + 1` and no e-mail, persisted under the user key only. |
| Auth.RegisteredCannotLogin | src/contexts/AuthContext.tsx:42-94 | Registering a new name signs it in. Logging in later with the same credentials is refused, because only the demo accounts are ever looked up. |
| Auth.RegisteredId | src/contexts/AuthContext.tsx:83 | The new account's id is "3". |
| Auth.DemoNames | src/contexts/AuthContext.tsx:23-26 | The demo usernames are exactly `demo` and `user`. |
| Auth.IsAuthenticated | src/contexts/AuthContext.tsx:109 | Authenticated exactly when a user is signed in. |
| Auth.SignedInOnReload | src/contexts/AuthContext.tsx:33-109 | After a reload the session is authenticated exactly when the store holds a user. |
| Auth.Logout | src/contexts/AuthContext.tsx:96-99 | Not authenticated afterwards, no stored user, only the user key changes. |
| Auth.ClearError | src/contexts/AuthContext.tsx:101-103 | The error is cleared and nothing else changes. |
| Auth.SessionSurvivesReload | src/contexts/AuthContext.tsx:33-64 | After a successful login a reload restores the same user. After logout it restores nobody. |
| Theme.Mount | src/contexts/ThemeContext.tsx:18-24 | The initial theme is the stored theme, `dark` by default, and it is written back. Only the theme key changes. |
| Theme.Flip | src/contexts/ThemeContext.tsx:27 | `light` becomes `dark`, and anything else, `dark` included, becomes `light`. |
| Theme.ToggleTheme | src/contexts/ThemeContext.tsx:20-28 | The theme flips and the store then holds the new theme. Only the theme key changes. |
| Theme.ToggleTwice | src/contexts/ThemeContext.tsx:26-28 | Toggling twice restores light or dark. Any other stored value ends at dark. |

## Left out

- Interleaving of asynchronous operations. Every operation is one atomic step. A response
  that arrives after a later request, and the React batching of state updates, are not
  modelled. The two mount effects (genres, then trending plus the last search) are
  modelled one operation at a time (`MovieContext.LoadGenres`,
  `MovieContext.FetchTrendingMovies`, `MovieContext.MountSearch`), not as a concurrent
  start-up.
- The re-creation of the debounced function when the filter options or filtered pages
  change. A timer pending in the old debounced function keeps running. The search it fires
  uses the filter options and filtered pages captured when that function was created, not
  the current ones. Typing after the change starts a second timer, so two searches can fire.
  The model keeps one debouncer slot.
- MovieContext.SearchTimerElapsed: decides with the current filter options. In the code, a
  search typed without filters and applied filters within the 500 ms wait still sees no
  filters when the timer fires. It calls the remote search and replaces the shown list,
  the unfiltered snapshot and both counters while filter mode is on.
- Time. The 500 ms wait is an explicit `Elapse` event. The 1000 ms simulated delay of
  login and register is dropped.
- The HTTP transport, the API key and the base URL. The client's log-and-rethrow on
  failure is the identity on the outcome.
- JSON encoding in the browser store. The store holds typed values. An entry of the wrong
  shape reads as absent, where the code would throw or return the parsed value.
- Floating-point ratings and vote averages. Ratings and years are integers as the selects
  produce them. `parseInt` and `NaN` are not modelled.
- Unicode case mapping. `toLowerCase` is modelled for ASCII letters only.
- Date formatting, image URLs, routing and redirects, and all markup. The favourites page
  and the presentation components are outside the core.
- Storage.GetTheme: returns any non-empty stored text, not only `light` or `dark`, because
  the code casts whatever is stored.
- MovieContext.LoadMoreAppends: requires the current page to be at least 1. A page counter
  of 0 or below would make "load more" request page 1, which replaces instead of appending.
- MovieContext.LoadMoreAppends: also requires a settled state. After a failed "apply" the
  state is not settled, and "load more" can replace the list; see Findings
  (`FilterPanel.LoadMoreAfterFailedApply`).
- MovieDetailsPage.RuntimeText: the minutes of a negative runtime are written with a minus
  sign. The contract reads the digits back for non-negative numbers only.
- MovieContext.SearchTimerElapsed: states the call it issues and that the debouncer is
  idle again. It does not restate the search's effect on the state, which is
  MovieContext.SearchMoviesHandler's contract applied on page 1.
- Api.Params: states only which calls send a page. The parameter sets themselves are
  Api.SearchParams and Api.DiscoverParams.

## Findings

| source | as written | input that shows it | evidently intended | confidence | as-written member | corrected member |
|---|---|---|---|---|---|---|
| src/components/FilterPanel.tsx:52-56 | "Apply" commits the panel's options to the coordinator before the discover request. When the request fails, filter mode is on while the shown list and the filtered pages are stale. The reconciliation effect does not run, because neither of its inputs changed. | A plain search showing one movie on page 1 of 3 with no filtered pages. "Apply" with genre 28 fails. Then "load more" returns an empty page 2: the list becomes empty. | "Load more" keeps what is shown and appends to it. This holds if the options are committed only with a successful first page. | medium; not executed | FilterPanel.LoadMoreAfterFailedApply | FilterPanel.ApplyCommitOnSuccess |

=== FILE: api.dfy ===
/** The remote catalog client: which endpoint each operation requests and with which query
    parameters. The HTTP transport itself is not modelled; callers receive its outcome. */
module Api {
  import opened Wrappers
  import opened Text

  /** One query-parameter value: a number or a string. */
  datatype Param = Num(n: int) | Str(s: string)

  /** The remote operations the client issues. */
  datatype RemoteCall =
    | SearchMovies(query: string, page: int)
    | TrendingMovies(page: int)
    | MovieDetails(id: int)
    | MovieVideos(id: int)
    | Genres
    | DiscoverMovies(page: int, genreId: Option<int>, year: Option<int>, voteAverage: Option<int>)

  /** A filter argument is passed on only when truthy: defined and not zero. */
  predicate Truthy(v: Option<int>) {
    v.Some? && v.value != 0
  }

  /** The query parameters of `searchMovies(query, page)`. */
  function SearchParams(query: string, page: int): (r: map<string, Param>)
    ensures r.Keys == {"query", "page", "include_adult"}
    ensures r["query"] == Str(query) && r["page"] == Num(page) && r["include_adult"] == Str("false")
  {
    map["query" := Str(query), "page" := Num(page), "include_adult" := Str("false")]
  }

  /** The query parameters of `discoverMovies(page, genreId, year, voteAverage)`. */
  function DiscoverParams(page: int, genreId: Option<int>, year: Option<int>, voteAverage: Option<int>)
    : (r: map<string, Param>)
    ensures "page" in r && r["page"] == Num(page)
    ensures "include_adult" in r && r["include_adult"] == Str("false")
    ensures "sort_by" in r && r["sort_by"] == Str("popularity.desc")
    ensures "with_genres" in r <==> Truthy(genreId)
    ensures Truthy(genreId) ==> r["with_genres"] == Num(genreId.value)
    ensures "primary_release_year" in r <==> Truthy(year)
    ensures Truthy(year) ==> r["primary_release_year"] == Num(year.value)
    ensures "vote_average.gte" in r <==> Truthy(voteAverage)
    ensures Truthy(voteAverage) ==> r["vote_average.gte"] == Num(voteAverage.value)
    ensures r.Keys <= {"page", "include_adult", "sort_by", "with_genres", "primary_release_year", "vote_average.gte"}
  {
    var base := map["page" := Num(page), "include_adult" := Str("false"), "sort_by" := Str("popularity.desc")];
    var withGenre := if Truthy(genreId) then base["with_genres" := Num(genreId.value)] else base;
    var withYear := if Truthy(year) then withGenre["primary_release_year" := Num(year.value)] else withGenre;
    if Truthy(voteAverage) then withYear["vote_average.gte" := Num(voteAverage.value)] else withYear
  }

  /** The path each call requests, relative to the service's base URL. The id of a details
      or videos request is written in decimal right after `/movie/`, and reads back as
      that id. */
  function Path(call: RemoteCall): (r: string)
    ensures |r| > 0 && r[0] == '/'
    ensures (call.MovieDetails? || call.MovieVideos?) ==> "/movie/" <= r
    ensures call.MovieDetails? && call.id >= 0 ==> DecimalValue(r[7..]) == call.id
    ensures call.MovieVideos? ==> |r| > 14 && r[|r| - 7..] == "/videos"
    ensures call.MovieVideos? && call.id >= 0 ==> DecimalValue(r[7..|r| - 7]) == call.id
  {
    match call
    case SearchMovies(_, _) => "/search/movie"
    case TrendingMovies(_) => "/trending/movie/week"
    case MovieDetails(id) => "/movie/" + IntToString(id)
    case MovieVideos(id) => "/movie/" + IntToString(id) + "/videos"
    case Genres => "/genre/movie/list"
    case DiscoverMovies(_, _, _, _) => "/discover/movie"
  }

  /** The query parameters each call sends (the API key added by the transport aside). */
  function Params(call: RemoteCall): (r: map<string, Param>)
    ensures call.SearchMovies? || call.TrendingMovies? || call.DiscoverMovies? <==> "page" in r
  {
    match call
    case SearchMovies(q, page) => SearchParams(q, page)
    case TrendingMovies(page) => map["page" := Num(page)]
    case DiscoverMovies(page, g, y, v) => DiscoverParams(page, g, y, v)
    case _ => map[]
  }

  /** With no truthy filter (each one absent or 0), discover sends only the three fixed
      parameters. */
  lemma UnfilteredDiscover(page: int, genreId: Option<int>, year: Option<int>, voteAverage: Option<int>)
    requires !Truthy(genreId) && !Truthy(year) && !Truthy(voteAverage)
    ensures DiscoverParams(page, genreId, year, voteAverage)
         == map["page" := Num(page), "include_adult" := Str("false"), "sort_by" := Str("popularity.desc")]
  {
  }

  /** Genre 28, year 2020 and rating 7 on page 1 send exactly those three constraints
      besides the fixed parameters. */
  lemma DiscoverExample()
    ensures DiscoverParams(1, Some(28), Some(2020), Some(7))
         == map["page" := Num(1), "include_adult" := Str("false"), "sort_by" := Str("popularity.desc"),
                "with_genres" := Num(28), "primary_release_year" := Num(2020), "vote_average.gte" := Num(7)]
  {
  }
}

=== FILE: auth.dfy ===
/** The demo authentication state: two fixed accounts sharing one password, a register
    operation that creates an in-memory account, and the signed-in user persisted in the
    store. The simulated network delay is not modelled. */
module Auth {
  import opened Wrappers
  import opened Types
  import opened Seqs
  import opened Text
  import Storage

  const DemoUsers: seq<User> := [
    User("1", "demo", Some("demo@example.com")),
    User("2", "user", Some("user@example.com"))
  ]

  const DemoPassword := "password"
  const InvalidLogin := "Invalid username or password"
  const UsernameTaken := "Username already exists"

  /** The user, the loading flag and the last error. */
  datatype AuthState = AuthState(user: Option<User>, loading: bool, error: Option<string>)

  /** The outcome of an operation: the new state and the new store. */
  datatype AuthStep = AuthStep(state: AuthState, store: Storage.Store)

  /** Some demo account has this username. */
  predicate IsDemoName(username: string) {
    exists i :: 0 <= i < |DemoUsers| && DemoUsers[i].username == username
  }

  /** The test `u => u.username === username`. */
  function HasUsername(username: string): User -> bool {
    (u: User) => u.username == username
  }

  /** `DEMO_USERS.find(u => u.username === username)`. */
  function FindDemoUser(username: string): (r: Option<User>)
    ensures r.Some? <==> IsDemoName(username)
    ensures r.Some? ==> r.value in DemoUsers && r.value.username == username
  {
    FindFirst(HasUsername(username), DemoUsers)
  }

  /** The state once the provider has mounted: the stored user, if any, not loading. */
  function Init(store: Storage.Store): (r: AuthState)
    ensures r.user == Storage.GetUser(store) && !r.loading && r.error == None
  {
    AuthState(Storage.GetUser(store), false, None)
  }

  /** `isAuthenticated`: a user is signed in. */
  function IsAuthenticated(a: AuthState): (r: bool)
    ensures r <==> a.user != None
  {
    a.user.Some?
  }

  /** On reload the session is signed in exactly when the store holds a user. */
  lemma SignedInOnReload(store: Storage.Store)
    ensures IsAuthenticated(Init(store)) <==> Storage.GetUser(store).Some?
  {
  }

  /** `login(credentials)`: succeeds exactly for a demo username with the demo password,
      signing in and persisting that account; otherwise records the error and leaves the
      user and the store alone. Loading is off afterwards either way. */
  function Login(a: AuthState, store: Storage.Store, c: Credentials): (r: AuthStep)
    ensures !r.state.loading
    ensures IsDemoName(c.username) && c.password == DemoPassword ==>
              && r.state.user.Some? && r.state.user.value in DemoUsers
              && r.state.user.value.username == c.username
              && Storage.GetUser(r.store) == r.state.user
              && Storage.SameExcept(store, r.store, Storage.UserKey)
              && r.state.error == None
    ensures !(IsDemoName(c.username) && c.password == DemoPassword) ==>
              r.state == a.(loading := false, error := Some(InvalidLogin)) && r.store == store
  {
    var found := FindDemoUser(c.username);
    if found.Some? && c.password == DemoPassword then
      AuthStep(AuthState(found, false, None), Storage.SaveUser(store, found.value))
    else
      AuthStep(a.(loading := false, error := Some(InvalidLogin)), store)
  }

  /** `register(credentials)`: a demo username is refused; any other name signs in a new
      account with id `DEMO_USERS.length + 1` and no e-mail, which is persisted. The
      password is not looked at. Loading is off afterwards either way. */
  function Register(a: AuthState, store: Storage.Store, c: Credentials): (r: AuthStep)
    ensures !r.state.loading
    ensures IsDemoName(c.username) ==>
              r.state == a.(loading := false, error := Some(UsernameTaken)) && r.store == store
    ensures !IsDemoName(c.username) ==>
              && r.state.user == Some(User(IntToString(|DemoUsers| + 1), c.username, None))
              && Storage.GetUser(r.store) == r.state.user
              && Storage.SameExcept(store, r.store, Storage.UserKey)
              && r.state.error == None
  {
    if FindDemoUser(c.username).Some? then
      AuthStep(a.(loading := false, error := Some(UsernameTaken)), store)
    else
      var user := User(IntToString(|DemoUsers| + 1), c.username, None);
      AuthStep(AuthState(Some(user), false, None), Storage.SaveUser(store, user))
  }

  /** The id a registered account receives is "3". */
  lemma RegisteredId()
    ensures IntToString(|DemoUsers| + 1) == "3"
  {
  }

  /** The demo usernames are exactly "demo" and "user". */
  lemma DemoNames(username: string)
    ensures IsDemoName(username) <==> username == "demo" || username == "user"
  {
    if username == "demo" {
      assert DemoUsers[0].username == username;
    } else if username == "user" {
      assert DemoUsers[1].username == username;
    }
  }

  /** A registered account lives only in the session: registering a new name signs it in,
      yet logging in later with the same credentials is refused, since only the demo
      accounts are ever looked up. */
  lemma RegisteredCannotLogin(a: AuthState, store: Storage.Store, c: Credentials)
    requires !IsDemoName(c.username)
    ensures IsAuthenticated(Register(a, store, c).state)
    ensures
      var after := Register(a, store, c);
      Login(after.state, after.store, c).state.error == Some(InvalidLogin)
  {
  }

  /** `logout()`: no user, and none stored. */
  function Logout(a: AuthState, store: Storage.Store): (r: AuthStep)
    ensures !IsAuthenticated(r.state)
    ensures Storage.GetUser(r.store) == None && Storage.UserKey !in r.store
    ensures Storage.SameExcept(store, r.store, Storage.UserKey)
    ensures r.state.loading == a.loading && r.state.error == a.error
  {
    AuthStep(a.(user := None), Storage.RemoveUser(store))
  }

  /** `clearError()`. */
  function ClearError(a: AuthState): (r: AuthState)
    ensures r.error == None && r.user == a.user && r.loading == a.loading
  {
    a.(error := None)
  }

  /** After signing in, a reload restores the same user; after signing out it restores
      nobody. */
  lemma SessionSurvivesReload(a: AuthState, store: Storage.Store, c: Credentials)
    ensures
      var r := Login(a, store, c);
      r.state.error == None ==> Init(r.store).user == r.state.user
    ensures Init(Logout(a, store).store).user == None
  {
  }
}

=== FILE: debounce.dfy ===
/** `debounce(func, wait)`: a wrapper holding at most one pending timer. Each call clears the
    pending timer and schedules a new one; when a timer's wait runs out, `func` receives the
    query of the call that scheduled it. Time is reduced to an explicit `Elapse` event meaning
    "the wait ran out with no call in between". */
module Debounce {
  import opened Wrappers

  /** The closure's single `timeout` slot: the query of the pending timer, if one is pending. */
  datatype Debouncer = Debouncer(pending: Option<string>)

  /** A freshly created debounced function: no timer pending. */
  const Idle := Debouncer(None)

  /** What can happen to a debounced function: it is called with a query, or the wait elapses. */
  datatype Event = Invoke(query: string) | Elapse

  /** The slot after one event, and the query `func` receives during that event, if any. */
  datatype Tick = Tick(next: Debouncer, fired: Option<string>)

  /** One event. A call never runs `func` itself and returns nothing; it replaces whatever
      was pending with its own query. An elapse fires the pending query, if any. */
  function Step(d: Debouncer, e: Event): (r: Tick)
    ensures e.Invoke? ==> r.fired == None && r.next.pending == Some(e.query)
    ensures e.Elapse? ==> r.fired == d.pending && r.next == Idle
  {
    match e
    case Invoke(q) => Tick(Debouncer(Some(q)), None)
    case Elapse => Tick(Idle, d.pending)
  }

  /** The slot after a whole trace, and every query `func` received, in order. */
  datatype Trace = Trace(final: Debouncer, fired: seq<string>)

  /** Replay a trace of events from slot `d`. */
  function Run(d: Debouncer, es: seq<Event>): Trace
    decreases |es|
  {
    if |es| == 0 then Trace(d, [])
    else
      var t := Step(d, es[0]);
      var rest := Run(t.next, es[1..]);
      Trace(rest.final, (if t.fired.Some? then [t.fired.value] else []) + rest.fired)
  }

  /** Reference definition of what `func` receives: the query of every call that is directly
      followed by an elapse. A call followed by another call is cancelled. */
  function Expected(es: seq<Event>): seq<string>
    decreases |es|
  {
    if |es| < 2 then []
    else (if es[0].Invoke? && es[1].Elapse? then [es[0].query] else []) + Expected(es[1..])
  }

  /** Replaying from any slot: the pending query fires only if the trace starts with an
      elapse; after that, exactly the calls followed directly by an elapse fire. */
  lemma {:induction false} RunFires(d: Debouncer, es: seq<Event>)
    ensures Run(d, es).fired
         == (if d.pending.Some? && |es| > 0 && es[0].Elapse? then [d.pending.value] else [])
            + Expected(es)
    decreases |es|
  {
    if |es| > 0 {
      var t := Step(d, es[0]);
      RunFires(t.next, es[1..]);
      if es[0].Invoke? && |es| > 1 {
        assert Expected(es) == (if es[1].Elapse? then [es[0].query] else []) + Expected(es[1..]);
      }
    }
  }

  /** From a fresh debouncer, `func` receives exactly the reference sequence of queries. */
  lemma RunFromIdle(es: seq<Event>)
    ensures Run(Idle, es).fired == Expected(es)
  {
    RunFires(Idle, es);
  }

  /** After a trace, a timer is pending exactly when the last event was a call, and it
      carries that call's query: the most recent call always wins. */
  lemma {:induction false} PendingIsLastCall(d: Debouncer, es: seq<Event>)
    requires |es| > 0
    ensures Run(d, es).final.pending
         == (if es[|es| - 1].Invoke? then Some(es[|es| - 1].query) else None)
    decreases |es|
  {
    if |es| > 1 {
      PendingIsLastCall(Step(d, es[0]).next, es[1..]);
    }
  }

  /** Each firing consumes a call and the elapse right after it, so at most every second
      event fires. */
  lemma {:induction false} FiresAtMostOncePerCall(es: seq<Event>)
    ensures |Expected(es)| <= |es| / 2
    decreases |es|
  {
    if |es| >= 2 {
      FiresAtMostOncePerCall(es[1..]);
      if es[0].Invoke? && es[1].Elapse? && |es| >= 3 {
        FiresAtMostOncePerCall(es[2..]);
        assert Expected(es[1..]) == Expected(es[2..]);
      }
    }
  }
}

=== FILE: filter_panel.dfy ===
/** The filter panel: a local copy of the filter options edited field by field, committed
    to the coordinator on "apply" and reset on "clear", plus its year and rating choices. */
module FilterPanel {
  import opened Wrappers
  import opened Types
  import Storage
  import MovieContext

  /** The "Active" badge: shown when some field of the committed options holds a value. A
      shown badge means the coordinator is in filter mode, but not the other way round. */
  function ActiveBadge(f: FilterOptions): (r: bool)
    ensures r <==> f.genre.Val? || f.year.Val? || f.rating.Val?
    ensures r ==> HasKeys(f)
    ensures f == FilterOptions(PresentUndefined, PresentUndefined, PresentUndefined) ==>
              !r && HasKeys(f)
  {
    SomeDefined(f)
  }

  /** A select's new value: the empty choice stores an explicit `undefined`. */
  function Selected(choice: Option<int>): (r: FilterField)
    ensures r.Defined() == choice
    ensures r != Absent
  {
    match choice
    case None => PresentUndefined
    case Some(v) => Val(v)
  }

  /** The genre select changed: only the genre field of the local options changes. */
  function ChangeGenre(local: FilterOptions, choice: Option<int>): (r: FilterOptions)
    ensures r.genre.Defined() == choice && r.genre != Absent
    ensures r.year == local.year && r.rating == local.rating
  {
    local.(genre := Selected(choice))
  }

  /** The year select changed: only the year field of the local options changes. */
  function ChangeYear(local: FilterOptions, choice: Option<int>): (r: FilterOptions)
    ensures r.year.Defined() == choice && r.year != Absent
    ensures r.genre == local.genre && r.rating == local.rating
  {
    local.(year := Selected(choice))
  }

  /** The rating select changed: only the rating field of the local options changes. */
  function ChangeRating(local: FilterOptions, choice: Option<int>): (r: FilterOptions)
    ensures r.rating.Defined() == choice && r.rating != Absent
    ensures r.genre == local.genre && r.year == local.year
  {
    local.(rating := Selected(choice))
  }

  /** Once any select has been touched the options have a key, whatever was chosen: the
      coordinator treats them as active filters even when every choice was cleared. */
  lemma TouchedPanelHasKeys(local: FilterOptions, choice: Option<int>)
    ensures HasKeys(ChangeGenre(local, choice))
    ensures HasKeys(ChangeYear(local, choice))
    ensures HasKeys(ChangeRating(local, choice))
  {
  }

  /** "Apply": commit the local options to the coordinator and discover page 1 with those
      same options. */
  function Apply(s: MovieContext.State, store: Storage.Store, local: FilterOptions,
                 outcome: Fetch<SearchResponse>): (r: MovieContext.Step)
    ensures r.state.filterOptions == local
    ensures r.call == Some(MovieContext.DiscoverFor(1, local))
    ensures r.store == store
    ensures outcome.Ok? ==>
              && r.state.filteredMovies == outcome.value.results
              && r.state.currentPage == 1
              && r.state.movies == MovieContext.FilteredView(outcome.value.results, s.searchQuery)
    ensures outcome.Ok? ==>
              r.state == s.(filterOptions := local, filteredMovies := outcome.value.results,
                            movies := MovieContext.FilteredView(outcome.value.results, s.searchQuery),
                            currentPage := 1, totalPages := outcome.value.totalPages,
                            loading := false, error := None)
    ensures outcome.Err? ==>
              r.state == s.(filterOptions := local, loading := false, error := Some(MovieContext.FilterError))
  {
    MovieContext.ApplyFilters(s.(filterOptions := local), store, 1, Some(local), outcome)
  }

  /** As written, "apply" commits the options before the request is known to succeed. When
      it fails, filter mode is on while `movies` still holds what was shown before and the
      filtered pages are stale; the reconciliation effect does not run, since neither the
      search text nor the filtered pages changed. A "load more" from there appends to the
      stale filtered pages and replaces the shown list: with no filtered pages and an empty
      next page, everything shown before disappears. */
  lemma LoadMoreAfterFailedApply(s: MovieContext.State, store: Storage.Store, local: FilterOptions,
                                 response: SearchResponse)
    requires HasKeys(local) && MovieContext.CanLoadMore(s)
    requires s.filteredMovies == [] && s.movies != [] && response.results == []
    ensures var failed := Apply(s, store, local, Err).state;
            && MovieContext.FiltersActive(failed) && MovieContext.CanLoadMore(failed)
            && failed.movies == s.movies && !MovieContext.Settled(failed)
            && var after := MovieContext.LoadMoreMovies(failed, store, Ok(response)).state;
               after.movies == [] && !(failed.movies <= after.movies)
  {
  }

  /** "Apply" as evidently intended: the options are committed together with the first
      filtered page, and a failed request leaves the coordinator's options (and everything
      but the loading flag and the error) as they were. It keeps the state settled, so a
      following "load more" appends. */
  function ApplyCommitOnSuccess(s: MovieContext.State, store: Storage.Store, local: FilterOptions,
                                outcome: Fetch<SearchResponse>): (r: MovieContext.Step)
    ensures r.call == Some(MovieContext.DiscoverFor(1, local)) && r.store == store
    ensures outcome.Ok? ==> r == Apply(s, store, local, outcome)
    ensures outcome.Err? ==>
              r.state == s.(loading := false, error := Some(MovieContext.FilterError))
    ensures MovieContext.Settled(s) ==> MovieContext.Settled(r.state)
  {
    match outcome
    case Ok(_) =>
      var r := Apply(s, store, local, outcome);
      MovieContext.ReconcileFixpoint(r.state);
      r
    case Err =>
      MovieContext.ApplyFilters(s, store, 1, Some(local), outcome)
  }

  /** With the corrected "apply", a successful "load more" after it, whatever the apply's
      outcome, keeps everything shown before. */
  lemma {:induction false} CommittedApplyThenLoadMore(s: MovieContext.State, store: Storage.Store,
                                                      local: FilterOptions,
                                                      outcome: Fetch<SearchResponse>,
                                                      response: SearchResponse)
    requires MovieContext.Settled(s)
    requires var a := ApplyCommitOnSuccess(s, store, local, outcome).state;
             && MovieContext.CanLoadMore(a) && a.currentPage >= 1
             && (MovieContext.FiltersActive(a) || MovieContext.SearchActive(a.searchQuery))
    ensures var a := ApplyCommitOnSuccess(s, store, local, outcome).state;
            a.movies <= MovieContext.LoadMoreMovies(a, store, Ok(response)).state.movies
  {
    var a := ApplyCommitOnSuccess(s, store, local, outcome).state;
    MovieContext.LoadMoreAppends(a, store, response);
  }

  /** What "clear" leaves behind: the panel's local options and the coordinator's state. */
  datatype Cleared = Cleared(local: FilterOptions, state: MovieContext.State)

  /** "Clear": reset the local options to `{}` and clear the coordinator's filters. */
  function Clear(s: MovieContext.State): (r: Cleared)
    ensures r.local == NoFilters && !HasKeys(r.local)
    ensures r.state.filterOptions == r.local
    ensures r.state.filteredMovies == [] && r.state.currentPage == 1 && r.state.totalPages == 1
  {
    Cleared(NoFilters, MovieContext.ClearFilters(s))
  }

  /** The year choices: `currentYear` down to 1900, one per year. `Array.from` with a
      negative length yields an empty array. */
  method Years(currentYear: int) returns (years: seq<int>)
    ensures |years| == if currentYear >= 1899 then currentYear - 1899 else 0
    ensures |years| > 0 ==> years[0] == currentYear && years[|years| - 1] == 1900
    ensures forall i, j :: 0 <= i < j < |years| ==> years[i] > years[j]
    ensures forall y :: y in years <==> 1900 <= y <= currentYear
  {
    var length := if currentYear >= 1899 then currentYear - 1899 else 0;
    years := [];
    var i := 0;
    while i < length
      invariant 0 <= i <= length
      invariant |years| == i
      invariant forall k :: 0 <= k < i ==> years[k] == currentYear - k
    {
      years := years + [currentYear - i];
      i := i + 1;
    }
    forall y | 1900 <= y <= currentYear ensures y in years {
      assert years[currentYear - y] == y;
    }
  }

  /** The rating choices: 9 down to 1. */
  function RatingChoices(): (r: seq<int>)
    ensures |r| == 9
    ensures forall i, j :: 0 <= i < j < |r| ==> r[i] > r[j]
    ensures forall v :: v in r <==> 1 <= v <= 9
  {
    [9, 8, 7, 6, 5, 4, 3, 2, 1]
  }
}

=== FILE: home_page.dfy ===
/** The home page's selectors: which list the grid shows, its title, and whether the
    "load more" control is offered. The page uses its own "filters active" test, which
    looks at values rather than keys. */
module HomePage {
  import opened Wrappers
  import opened Types
  import opened Seqs
  import opened Text
  import MovieContext

  /** `Object.values(filterOptions).some(value => value !== undefined)`: some field holds a
      value. A field whose key holds `undefined` does not count, unlike in the coordinator. */
  function HasActiveFilters(f: FilterOptions): (r: bool)
    ensures r <==> f.genre.Val? || f.year.Val? || f.rating.Val?
    ensures r ==> HasKeys(f)
  {
    SomeDefined(f)
  }

  /** `searchQuery.trim().length > 0`. */
  predicate ShowSearchResults(s: MovieContext.State) {
    |Trim(s.searchQuery)| > 0
  }

  /** The page shows the coordinator's results rather than the trending list. */
  predicate ShowsResults(s: MovieContext.State) {
    ShowSearchResults(s) || HasActiveFilters(s.filterOptions)
  }

  /** `getMoviesToDisplay()`: the coordinator's list while a search or a filter is active,
      the trending list otherwise. */
  function MoviesToDisplay(s: MovieContext.State): (r: seq<Movie>)
    ensures ShowsResults(s) ==> r == s.movies
    ensures !ShowsResults(s) ==> r == s.trendingMovies
  {
    if ShowSearchResults(s) || HasActiveFilters(s.filterOptions) then s.movies else s.trendingMovies
  }

  /** The grid's `showLoadMore` prop: set exactly when the page shows the coordinator's
      list, never under the trending list. The grid adds its own conditions before it
      draws the control. */
  function ShowLoadMore(s: MovieContext.State): (r: bool)
    ensures r ==> MoviesToDisplay(s) == s.movies
    ensures !r ==> MoviesToDisplay(s) == s.trendingMovies
    ensures r <==> ShowsResults(s)
  {
    ShowSearchResults(s) || HasActiveFilters(s.filterOptions)
  }

  /** The test `g => g.id === id`. */
  function HasId(id: int): Genre -> bool {
    (g: Genre) => g.id == id
  }

  /** `getGenreName(id)`: the name of the first genre with this id, else `Genre: <id>`. */
  function GenreName(genres: seq<Genre>, id: int): (r: string)
    ensures forall k :: 0 <= k < |genres| && genres[k].id == id && IsFirst(HasId(id), genres, k) ==>
              r == genres[k].name
    ensures (forall k :: 0 <= k < |genres| ==> genres[k].id != id) ==> r == "Genre: " + IntToString(id)
  {
    FindFirstEach(HasId(id), genres);
    match FindFirst(HasId(id), genres)
    case Some(g) => g.name
    case None => "Genre: " + IntToString(id)
  }

  /** Number of defined fields of `f`. */
  function DefinedCount(f: FilterOptions): nat {
    (if f.genre.Val? then 1 else 0) + (if f.year.Val? then 1 else 0) + (if f.rating.Val? then 1 else 0)
  }

  /** The labelled parts of the filter title: genre, year, rating, each only when defined,
      in that order. */
  function FilterParts(genres: seq<Genre>, f: FilterOptions): (r: seq<string>)
    ensures |r| == DefinedCount(f)
    ensures f.genre.Val? ==> r[0] == "Genre: " + GenreName(genres, f.genre.value)
    ensures f.year.Val? ==> r[if f.genre.Val? then 1 else 0] == "Year: " + IntToString(f.year.value)
    ensures f.rating.Val? ==> r[|r| - 1] == "Rating: " + IntToString(f.rating.value) + "+"
  {
    (if f.genre.Val? then ["Genre: " + GenreName(genres, f.genre.value)] else [])
    + (if f.year.Val? then ["Year: " + IntToString(f.year.value)] else [])
    + (if f.rating.Val? then ["Rating: " + IntToString(f.rating.value) + "+"] else [])
  }

  /** `getFilterTitle()`: the parts joined by ", " inside `Filtered Movies (...)`. */
  function FilterTitle(genres: seq<Genre>, f: FilterOptions): (r: string)
    ensures "Filtered Movies (" <= r && r[|r| - 1] == ')'
    ensures !SomeDefined(f) ==> r == "Filtered Movies ()"
    ensures DefinedCount(f) == 1 ==> r == "Filtered Movies (" + FilterParts(genres, f)[0] + ")"
  {
    "Filtered Movies (" + Join(FilterParts(genres, f), ", ") + ")"
  }

  /** The filter title lists every defined part, separated by ", ": the exact title for
      two and for three defined filters. */
  lemma FilterTitleExact(genres: seq<Genre>, f: FilterOptions)
    ensures DefinedCount(f) == 2 ==>
              var p := FilterParts(genres, f);
              FilterTitle(genres, f) == "Filtered Movies (" + p[0] + ", " + p[1] + ")"
    ensures DefinedCount(f) == 3 ==>
              var p := FilterParts(genres, f);
              FilterTitle(genres, f) == "Filtered Movies (" + p[0] + ", " + p[1] + ", " + p[2] + ")"
  {
    TitleOfParts(FilterParts(genres, f));
  }

  /** The title text for a list of parts, whatever the parts are. */
  lemma TitleOfParts(p: seq<string>)
    ensures |p| == 2 ==> "Filtered Movies (" + Join(p, ", ") + ")" == "Filtered Movies (" + p[0] + ", " + p[1] + ")"
    ensures |p| == 3 ==>
              "Filtered Movies (" + Join(p, ", ") + ")" == "Filtered Movies (" + p[0] + ", " + p[1] + ", " + p[2] + ")"
  {
    JoinFew(p, ", ");
  }

  const TrendingTitle := "Trending This Week"

  /** The heading of search results, `Results for "<query>"`. */
  function ResultsFor(query: string): (r: string)
    ensures |r| > 0 && r[0] == 'R'
  {
    "Results for \"" + query + "\""
  }

  /** `getMovieGridTitle()`: search and filter, search only, filter only, or trending. */
  function GridTitle(s: MovieContext.State): (r: string)
    ensures ShowSearchResults(s) && HasActiveFilters(s.filterOptions) ==>
              r == ResultsFor(s.searchQuery) + " in " + FilterTitle(s.genres, s.filterOptions)
    ensures ShowSearchResults(s) && !HasActiveFilters(s.filterOptions) ==> r == ResultsFor(s.searchQuery)
    ensures !ShowSearchResults(s) && HasActiveFilters(s.filterOptions) ==>
              r == FilterTitle(s.genres, s.filterOptions)
    ensures !ShowsResults(s) ==> r == TrendingTitle
  {
    var searching := ShowSearchResults(s);
    var filtering := HasActiveFilters(s.filterOptions);
    if searching && filtering then ResultsFor(s.searchQuery) + " in " + FilterTitle(s.genres, s.filterOptions)
    else if searching then ResultsFor(s.searchQuery)
    else if filtering then FilterTitle(s.genres, s.filterOptions)
    else TrendingTitle
  }

  /** The title says "Trending This Week" exactly when the trending list is what the grid
      shows, and exactly when no "load more" control is offered. */
  lemma TitleMatchesList(s: MovieContext.State)
    ensures GridTitle(s) == TrendingTitle <==> !ShowsResults(s)
    ensures GridTitle(s) == TrendingTitle <==> !ShowLoadMore(s)
  {
    var r := GridTitle(s);
    if ShowSearchResults(s) {
      assert r[0] == ResultsFor(s.searchQuery)[0] == 'R';
    } else if HasActiveFilters(s.filterOptions) {
      assert r[0] == "Filtered Movies ("[0] == 'F';
    }
  }

  /** The page never offers "load more" in the state where the coordinator's "load more"
      would take the blank-search branch: no filter keys and a blank search text. */
  lemma BlankLoadMoreHidden(s: MovieContext.State)
    requires !MovieContext.FiltersActive(s) && IsBlank(s.searchQuery)
    ensures !ShowLoadMore(s)
  {
  }

  /** The page's test and the coordinator's agree on the search text, but not on filters:
      options with a key but no defined value (what the panel stores when a touched select
      is cleared and applied) count as active for the coordinator, which keeps showing and
      restricting the filtered pages, while the page, with a blank search text, shows the
      trending list. */
  lemma ActiveTestsDiverge(s: MovieContext.State)
    requires HasKeys(s.filterOptions) && !SomeDefined(s.filterOptions)
    requires IsBlank(s.searchQuery)
    ensures MovieContext.FiltersActive(s)
    ensures !HasActiveFilters(s.filterOptions)
    ensures MoviesToDisplay(s) == s.trendingMovies
    ensures ShowSearchResults(s) <==> MovieContext.SearchActive(s.searchQuery)
  {
  }
}

=== FILE: movie_context.dfy ===
/** The query coordinator of the catalog client: the state the movie context holds and every
    operation it exposes, each asynchronous one taken as a single atomic transition that
    receives the remote outcome as a parameter and reports the remote call it issued. */
module MovieContext {
  import opened Wrappers
  import opened Types
  import opened Seqs
  import opened Text
  import Storage
  import Api
  import Debounce

  /** Everything the context holds. `movies` is what observers are shown; `filteredMovies`
      caches the pages of the filter dimension and `unfilteredSearchResults` the pages of the
      last plain search; `search` is the debounced search's pending slot. */
  datatype State = State(
    movies: seq<Movie>,
    trendingMovies: seq<Movie>,
    selectedMovie: Option<MovieDetails>,
    loading: bool,
    error: Option<string>,
    searchQuery: string,
    totalPages: int,
    currentPage: int,
    favorites: seq<int>,
    genres: seq<Genre>,
    filterOptions: FilterOptions,
    filteredMovies: seq<Movie>,
    unfilteredSearchResults: seq<Movie>,
    search: Debounce.Debouncer)

  /** The outcome of one operation: the new state, the new persisted store, and the remote
      call the operation issued, if it issued one. */
  datatype Step = Step(state: State, store: Storage.Store, call: Option<Api.RemoteCall>)

  const SearchError := "Failed to search movies. Please try again."
  const FilterError := "Failed to apply filters. Please try again."
  const TrendingError := "Failed to load trending movies. Please try again."
  const DetailsError := "Failed to load movie details. Please try again."

  /** The context's test for active filters: the options object has at least one key. */
  predicate FiltersActive(s: State) {
    HasKeys(s.filterOptions)
  }

  /** A query counts as a search once trimmed to something non-empty. */
  predicate SearchActive(query: string) {
    !IsBlank(query)
  }

  /** The favourites held in memory are the persisted list. */
  predicate InSync(s: State, store: Storage.Store) {
    s.favorites == Storage.GetFavorites(store)
  }

  /** The state when the provider mounts: the last search and the favourites are read from
      the store, everything else starts empty on page 1 of 1. */
  function Init(store: Storage.Store): (s: State)
    ensures s.searchQuery == Storage.GetLastSearch(store)
    ensures InSync(s, store)
    ensures !FiltersActive(s) && s.currentPage == 1 && s.totalPages == 1
    ensures s.movies == [] && !s.loading && s.error == None && s.search == Debounce.Idle
  {
    State([], [], None, false, None, Storage.GetLastSearch(store), 1, 1,
          Storage.GetFavorites(store), [], NoFilters, [], [], Debounce.Idle)
  }

  // ---------------------------------------------------------------------------------------
  // Restricting a list by the search text

  /** `movie.title.toLowerCase().includes(query.toLowerCase())`. */
  predicate TitleMatches(query: string, m: Movie) {
    Includes(Lower(m.title), Lower(query))
  }

  /** The test above as a function value, for `filter`. */
  function MatchesQuery(query: string): Movie -> bool {
    m => TitleMatches(query, m)
  }

  /** The movies of `ms` whose title contains `query`, case-insensitively, in their order
      and with every copy kept. The query is used untrimmed. */
  function Restrict(ms: seq<Movie>, query: string): (r: seq<Movie>)
    ensures forall m :: m in r <==> m in ms && TitleMatches(query, m)
    ensures forall m :: multiset(r)[m] == if TitleMatches(query, m) then multiset(ms)[m] else 0
    ensures IsSubsequence(r, ms)
  {
    FilterCountAll(MatchesQuery(query), ms);
    Filter(MatchesQuery(query), ms)
  }

  /** Restricting by the empty query keeps every movie. */
  lemma RestrictEmptyQuery(ms: seq<Movie>)
    ensures Restrict(ms, "") == ms
  {
    forall i | 0 <= i < |ms| ensures MatchesQuery("")(ms[i]) {
      IncludesTrivial(Lower(ms[i].title));
    }
    FilterKeepsAll(MatchesQuery(""), ms);
  }

  /** Restricting twice by the same query is restricting once. */
  lemma RestrictIdempotent(ms: seq<Movie>, query: string)
    ensures Restrict(Restrict(ms, query), query) == Restrict(ms, query)
  {
    FilterIdempotent(MatchesQuery(query), ms);
  }

  /** Restricting an appended page is appending the restricted page. */
  lemma RestrictAppend(a: seq<Movie>, b: seq<Movie>, query: string)
    ensures Restrict(a + b, query) == Restrict(a, query) + Restrict(b, query)
  {
    FilterConcat(MatchesQuery(query), a, b);
  }

  /** The restriction subtlety: a query with a leading space and something after it is an
      active search (it trims to a non-empty text), yet the restriction uses it untrimmed,
      so it matches no title without a space ("Batman" for " bat"). */
  lemma UntrimmedRestriction(ms: seq<Movie>, query: string)
    requires |query| > 1 && query[0] == ' ' && !IsSpace(query[1])
    requires forall i, k :: 0 <= i < |ms| && 0 <= k < |ms[i].title| ==> ms[i].title[k] != ' '
    ensures SearchActive(query)
    ensures Restrict(ms, query) == []
  {
    forall i | 0 <= i < |ms| ensures !MatchesQuery(query)(ms[i]) {
      NoMatch(ms[i].title, query);
    }
    FilterDropsAll(MatchesQuery(query), ms);
  }

  /** A title without spaces never contains a query that starts with a space. */
  lemma NoMatch(title: string, query: string)
    requires |query| > 0 && query[0] == ' '
    requires forall i :: 0 <= i < |title| ==> title[i] != ' '
    ensures !Includes(Lower(title), Lower(query))
  {
    var hay := Lower(title);
    var needle := Lower(query);
    forall i | 0 <= i <= |hay| - |needle| ensures !OccursAt(hay, needle, i) {
      assert hay[i..i + |needle|][0] == hay[i];
    }
  }

  /** The list shown while filters are active: the cached filtered pages, restricted by the
      search text when a search is active. */
  function FilteredView(filtered: seq<Movie>, query: string): (r: seq<Movie>)
    ensures !SearchActive(query) ==> r == filtered
    ensures SearchActive(query) ==> forall m :: m in r <==> m in filtered && TitleMatches(query, m)
    ensures SearchActive(query) ==>
              forall m :: multiset(r)[m] == if TitleMatches(query, m) then multiset(filtered)[m] else 0
    ensures IsSubsequence(r, filtered)
  {
    SubsequenceRefl(filtered);
    if SearchActive(query) then Restrict(filtered, query) else filtered
  }

  /** Viewing an appended filter page is appending its view: earlier movies stay in place. */
  lemma FilteredViewAppend(a: seq<Movie>, b: seq<Movie>, query: string)
    ensures FilteredView(a + b, query) == FilteredView(a, query) + FilteredView(b, query)
  {
    if SearchActive(query) {
      RestrictAppend(a, b, query);
    }
  }

  // ---------------------------------------------------------------------------------------
  // The reconciliation effect

  /** `movies` agrees with what the reconciliation effect derives: when filters are active
      it is the view of the filtered pages; otherwise anything goes. */
  predicate Settled(s: State) {
    FiltersActive(s) ==> s.movies == FilteredView(s.filteredMovies, s.searchQuery)
  }

  /** The effect run when the search text or the filtered pages change: with filters active,
      `movies` becomes the filtered pages, restricted by the search text when a search is
      active; without filters nothing changes (the search handler owns `movies` then). */
  function Reconcile(s: State): (r: State)
    ensures r == s.(movies := r.movies)
    ensures Settled(r)
    ensures !FiltersActive(s) ==> r == s
  {
    if FiltersActive(s) && SearchActive(s.searchQuery) then
      s.(movies := Restrict(s.filteredMovies, s.searchQuery))
    else if FiltersActive(s) && !SearchActive(s.searchQuery) then
      s.(movies := s.filteredMovies)
    else
      s
  }

  /** The effect changes a state exactly when the state is not yet settled, so running it
      twice is running it once. */
  lemma ReconcileFixpoint(s: State)
    ensures Reconcile(s) == s <==> Settled(s)
    ensures Reconcile(Reconcile(s)) == Reconcile(s)
  {
  }

  // ---------------------------------------------------------------------------------------
  // Search

  /** Page 1 replaces the accumulated list; any other page is appended to it. */
  function Accumulate(prev: seq<Movie>, page: int, results: seq<Movie>): (r: seq<Movie>)
    ensures page == 1 ==> r == results
    ensures page != 1 ==> prev <= r && r[|prev|..] == results
  {
    if page == 1 then results else prev + results
  }

  /** `searchMoviesHandler(query, page)`. A blank query makes no remote call and saves `''`:
      with filters active the filtered pages are shown, otherwise nothing on page 1 of 1.
      A query with filters active restricts the filtered pages locally, without a remote
      call, leaving the page counters alone. Otherwise the remote search is issued; on
      success page 1 replaces and later pages append, in `movies` and in the unfiltered
      snapshot alike, the page counter becomes the requested page and the page total follows
      the response; on failure only the error changes. */
  function SearchMoviesHandler(s: State, store: Storage.Store, query: string, page: int,
                               outcome: Fetch<SearchResponse>): (r: Step)
    ensures r.call.None? || r.call == Some(Api.SearchMovies(query, page))
    ensures && r.state.filteredMovies == s.filteredMovies && r.state.filterOptions == s.filterOptions
            && r.state.searchQuery == s.searchQuery && r.state.favorites == s.favorites
            && r.state.trendingMovies == s.trendingMovies && r.state.selectedMovie == s.selectedMovie
            && r.state.genres == s.genres && r.state.search == s.search
    ensures IsBlank(query) ==>
              && r.call == None && r.store == Storage.SaveLastSearch(store, "")
              && r.state.movies == (if FiltersActive(s) then s.filteredMovies else [])
              && r.state.totalPages == (if FiltersActive(s) then s.totalPages else 1)
              && r.state.currentPage == (if FiltersActive(s) then s.currentPage else 1)
              && r.state.unfilteredSearchResults == s.unfilteredSearchResults
              && r.state.loading == s.loading && r.state.error == s.error
    ensures SearchActive(query) && FiltersActive(s) ==>
              && r.call == None && r.store == Storage.SaveLastSearch(store, query)
              && r.state.movies == Restrict(s.filteredMovies, query)
              && r.state.totalPages == s.totalPages && r.state.currentPage == s.currentPage
              && r.state.unfilteredSearchResults == s.unfilteredSearchResults
              && r.state.loading == s.loading && r.state.error == s.error
    ensures SearchActive(query) && !FiltersActive(s) ==>
              r.call == Some(Api.SearchMovies(query, page)) && !r.state.loading
    ensures SearchActive(query) && !FiltersActive(s) && outcome.Ok? ==>
              && r.state.movies == Accumulate(s.movies, page, outcome.value.results)
              && r.state.unfilteredSearchResults == r.state.movies
              && r.state.currentPage == page
              && r.state.totalPages == outcome.value.totalPages
              && r.state.error == None
              && r.store == Storage.SaveLastSearch(store, query)
    ensures SearchActive(query) && !FiltersActive(s) && outcome.Err? ==>
              && r.state.movies == s.movies
              && r.state.unfilteredSearchResults == s.unfilteredSearchResults
              && r.state.totalPages == s.totalPages && r.state.currentPage == s.currentPage
              && r.state.error == Some(SearchError)
              && r.store == store
  {
    if IsBlank(query) then
      var next :=
        if FiltersActive(s) then s.(movies := s.filteredMovies)
        else s.(movies := [], totalPages := 1, currentPage := 1);
      Step(next, Storage.SaveLastSearch(store, ""), None)
    else if FiltersActive(s) then
      Step(s.(movies := Restrict(s.filteredMovies, query)), Storage.SaveLastSearch(store, query), None)
    else
      var call := Some(Api.SearchMovies(query, page));
      match outcome
      case Ok(response) =>
        var shown := if page == 1 then response.results else s.movies + response.results;
        Step(s.(movies := shown, unfilteredSearchResults := shown,
                totalPages := response.totalPages, currentPage := page,
                loading := false, error := None),
             Storage.SaveLastSearch(store, query), call)
      case Err =>
        Step(s.(loading := false, error := Some(SearchError)), store, call)
  }

  /** With filters active the handler makes no remote call and shows exactly what the
      reconciliation effect shows for the same text: the two code paths agree. */
  lemma HandlerAgreesWithEffect(s: State, store: Storage.Store, page: int, outcome: Fetch<SearchResponse>)
    requires FiltersActive(s)
    ensures
      var r := SearchMoviesHandler(s, store, s.searchQuery, page, outcome);
      r.call == None && r.state == Reconcile(s)
  {
  }

  /** `setSearchQuery(query)` as exposed to the search bar: store the text, hand it to the
      debounced search (no remote call now), and run the reconciliation effect if the text
      changed. Without filters `movies` is left to the later search. */
  function SetSearchQuery(s: State, query: string): (r: State)
    ensures r.searchQuery == query
    ensures r.search.pending == Some(query)
    ensures query != s.searchQuery ==> Settled(r)
    ensures query == s.searchQuery ==> r.movies == s.movies
    ensures !FiltersActive(s) ==> r.movies == s.movies
    ensures r == s.(searchQuery := query, search := r.search, movies := r.movies)
  {
    var typed := s.(searchQuery := query, search := Debounce.Step(s.search, Debounce.Invoke(query)).next);
    if query != s.searchQuery then Reconcile(typed) else typed
  }

  /** The debounced search's wait runs out: if a query is pending it is searched for, on
      page 1; otherwise nothing happens. */
  function SearchTimerElapsed(s: State, store: Storage.Store, outcome: Fetch<SearchResponse>): (r: Step)
    ensures r.state.search == Debounce.Idle
    ensures s.search.pending.None? ==> r == Step(s, store, None)
    ensures s.search.pending.Some? && SearchActive(s.search.pending.value) && !FiltersActive(s) ==>
              r.call == Some(Api.SearchMovies(s.search.pending.value, 1))
    ensures s.search.pending.Some? ==> r.call.None? || r.call == Some(Api.SearchMovies(s.search.pending.value, 1))
  {
    var tick := Debounce.Step(s.search, Debounce.Elapse);
    var idle := s.(search := tick.next);
    match tick.fired
    case Some(q) => SearchMoviesHandler(idle, store, q, 1, outcome)
    case None => Step(s, store, None)
  }

  /** Typing several texts in a row and then pausing searches for the last text only. */
  lemma {:induction false} TypingThenPause(s: State, store: Storage.Store, typed: seq<string>,
                                           outcome: Fetch<SearchResponse>)
    requires |typed| > 0
    requires !FiltersActive(s) && SearchActive(typed[|typed| - 1])
    ensures SearchTimerElapsed(TypeAll(s, typed), store, outcome).call
         == Some(Api.SearchMovies(typed[|typed| - 1], 1))
    decreases |typed|
  {
    TypeAllKeepsFilters(s, typed);
    TypeAllPending(s, typed);
  }

  /** The search bar receives each text of `typed` in turn. */
  function TypeAll(s: State, typed: seq<string>): State
    decreases |typed|
  {
    if |typed| == 0 then s else TypeAll(SetSearchQuery(s, typed[0]), typed[1..])
  }

  /** Typing never touches the filter options. */
  lemma {:induction false} TypeAllKeepsFilters(s: State, typed: seq<string>)
    ensures TypeAll(s, typed).filterOptions == s.filterOptions
    decreases |typed|
  {
    if |typed| > 0 {
      TypeAllKeepsFilters(SetSearchQuery(s, typed[0]), typed[1..]);
    }
  }

  /** After typing, the last text is the one pending in the debouncer. */
  lemma {:induction false} TypeAllPending(s: State, typed: seq<string>)
    requires |typed| > 0
    ensures TypeAll(s, typed).search.pending == Some(typed[|typed| - 1])
    ensures TypeAll(s, typed).searchQuery == typed[|typed| - 1]
    decreases |typed|
  {
    if |typed| > 1 {
      TypeAllPending(SetSearchQuery(s, typed[0]), typed[1..]);
    }
  }

  // ---------------------------------------------------------------------------------------
  // Filters and pagination

  /** The discover call for `page` with the defined fields of `f`. */
  function DiscoverFor(page: int, f: FilterOptions): Api.RemoteCall {
    Api.DiscoverMovies(page, f.genre.Defined(), f.year.Defined(), f.rating.Defined())
  }

  /** `applyFilters(page, options)`: discover with `options`, or with the context's own
      options when none are given. On success page 1 replaces the filtered pages and later
      pages append; `movies` becomes their view under the current search text (so the
      reconciliation effect that follows has nothing left to do), the page counter becomes
      the requested page and the page total follows the response. On failure only the
      error changes. */
  function ApplyFilters(s: State, store: Storage.Store, page: int, options: Option<FilterOptions>,
                        outcome: Fetch<SearchResponse>): (r: Step)
    ensures r.call == Some(DiscoverFor(page, if options.Some? then options.value else s.filterOptions))
    ensures r.store == store && !r.state.loading
    ensures outcome.Ok? ==>
              && r.state.filteredMovies == Accumulate(s.filteredMovies, page, outcome.value.results)
              && r.state.movies == FilteredView(r.state.filteredMovies, s.searchQuery)
              && r.state.currentPage == page
              && r.state.totalPages == outcome.value.totalPages
              && r.state.error == None
              && Reconcile(r.state) == r.state
              && r == Step(s.(filteredMovies := r.state.filteredMovies, movies := r.state.movies,
                              currentPage := page, totalPages := outcome.value.totalPages,
                              loading := false, error := None), store, r.call)
    ensures outcome.Err? ==> r.state == s.(loading := false, error := Some(FilterError))
  {
    var f := if options.Some? then options.value else s.filterOptions;
    var call := Some(DiscoverFor(page, f));
    match outcome
    case Ok(response) =>
      var filtered := if page == 1 then response.results else s.filteredMovies + response.results;
      var shown := if SearchActive(s.searchQuery) then Restrict(filtered, s.searchQuery) else filtered;
      Step(s.(filteredMovies := filtered, movies := shown,
              totalPages := response.totalPages, currentPage := page,
              loading := false, error := None), store, call)
    case Err =>
      Step(s.(loading := false, error := Some(FilterError)), store, call)
  }

  /** Whether "load more" has anything to do: more pages exist and no fetch is in flight. */
  predicate CanLoadMore(s: State) {
    s.currentPage < s.totalPages && !s.loading
  }

  /** `loadMoreMovies()`: with more pages and nothing loading, request the next page from
      the search (non-empty text, no filters) or from discover (filters active); otherwise
      do nothing. A whitespace-only text passes the non-empty test and lands in the blank
      branch of the search handler, which empties the list. */
  function LoadMoreMovies(s: State, store: Storage.Store, outcome: Fetch<SearchResponse>): (r: Step)
    ensures !CanLoadMore(s) ==> r == Step(s, store, None)
    ensures CanLoadMore(s) && !FiltersActive(s) && s.searchQuery == "" ==> r == Step(s, store, None)
    ensures CanLoadMore(s) && FiltersActive(s) ==>
              r.call == Some(DiscoverFor(s.currentPage + 1, s.filterOptions)) && r.store == store
    ensures CanLoadMore(s) && !FiltersActive(s) && SearchActive(s.searchQuery) ==>
              r.call == Some(Api.SearchMovies(s.searchQuery, s.currentPage + 1))
    ensures CanLoadMore(s) && !FiltersActive(s) && s.searchQuery != "" && IsBlank(s.searchQuery) ==>
              r.call == None && r.state.movies == [] && r.state.currentPage == 1
  {
    if CanLoadMore(s) then
      var nextPage := s.currentPage + 1;
      if s.searchQuery != "" && !FiltersActive(s) then
        SearchMoviesHandler(s, store, s.searchQuery, nextPage, outcome)
      else if FiltersActive(s) then
        ApplyFilters(s, store, nextPage, None, outcome)
      else
        Step(s, store, None)
    else
      Step(s, store, None)
  }

  /** A successful "load more" in the search or the filter dimension advances the page
      counter by one and appends: everything shown before stays in place, in order. In
      the search dimension the new list is exactly the old one plus the page. */
  lemma LoadMoreAppends(s: State, store: Storage.Store, response: SearchResponse)
    requires CanLoadMore(s) && Settled(s) && s.currentPage >= 1
    requires FiltersActive(s) || SearchActive(s.searchQuery)
    ensures
      var r := LoadMoreMovies(s, store, Ok(response)).state;
      && r.currentPage == s.currentPage + 1
      && s.movies <= r.movies
      && (!FiltersActive(s) ==> r.movies == s.movies + response.results)
  {
    if FiltersActive(s) {
      FilteredViewAppend(s.filteredMovies, response.results, s.searchQuery);
    } else {
      assert s.searchQuery != "" by {
        assert !AllSpace(s.searchQuery);
      }
    }
  }

  /** A failed "load more" changes neither the shown list, nor the caches, nor the page
      counters; it only records an error. */
  lemma LoadMoreFailureKeepsResults(s: State, store: Storage.Store)
    requires CanLoadMore(s)
    requires FiltersActive(s) || SearchActive(s.searchQuery)
    ensures
      var r := LoadMoreMovies(s, store, Err).state;
      && r.movies == s.movies && r.filteredMovies == s.filteredMovies
      && r.unfilteredSearchResults == s.unfilteredSearchResults
      && r.currentPage == s.currentPage && r.totalPages == s.totalPages
      && r.error.Some? && !r.loading
  {
    if !FiltersActive(s) {
      assert s.searchQuery != "" by {
        assert !AllSpace(s.searchQuery);
      }
    }
  }

  /** `clearFilters()`: drop the options and the filtered pages, go back to page 1 of 1, and
      show the last unfiltered search results if a search is active, else nothing. No remote
      call is made. */
  function ClearFilters(s: State): (r: State)
    ensures r.filterOptions == NoFilters && !FiltersActive(r)
    ensures r.filteredMovies == [] && r.currentPage == 1 && r.totalPages == 1
    ensures SearchActive(s.searchQuery) ==> r.movies == s.unfilteredSearchResults
    ensures !SearchActive(s.searchQuery) ==> r.movies == []
    ensures Reconcile(r) == r
    ensures r == s.(filterOptions := NoFilters, filteredMovies := [], movies := r.movies,
                    totalPages := 1, currentPage := 1)
  {
    s.(filterOptions := NoFilters, filteredMovies := [],
       movies := if SearchActive(s.searchQuery) then s.unfilteredSearchResults else [],
       totalPages := 1, currentPage := 1)
  }

  /** A plain search, then filters applied, then filters cleared: the search results come
      back from the snapshot, without a new remote call. */
  lemma ClearRestoresSearch(s: State, store: Storage.Store, response: SearchResponse,
                            f: FilterOptions, filtered: Fetch<SearchResponse>)
    requires SearchActive(s.searchQuery) && !FiltersActive(s)
    ensures
      var searched := SearchMoviesHandler(s, store, s.searchQuery, 1, Ok(response)).state;
      var applied := ApplyFilters(searched.(filterOptions := f), store, 1, Some(f), filtered).state;
      ClearFilters(applied).movies == response.results
  {
  }

  /** The start-up search: when the restored search text is non-empty it is searched for on
      page 1. The test is on the raw text, so a stored whitespace-only text takes the blank
      branch of the handler. */
  function MountSearch(s: State, store: Storage.Store, outcome: Fetch<SearchResponse>): (r: Step)
    ensures s.searchQuery == "" ==> r == Step(s, store, None)
    ensures SearchActive(s.searchQuery) && !FiltersActive(s) ==>
              r.call == Some(Api.SearchMovies(s.searchQuery, 1))
    ensures s.searchQuery != "" && IsBlank(s.searchQuery) ==>
              r.call == None && Storage.GetLastSearch(r.store) == ""
  {
    if s.searchQuery != "" then SearchMoviesHandler(s, store, s.searchQuery, 1, outcome)
    else Step(s, store, None)
  }

  /** On reload, a stored whitespace-only search is erased from the store: the start-up
      search finds it blank, shows nothing and saves `''`, while the search box keeps the
      whitespace. */
  lemma StoredBlankSearchErased(store: Storage.Store, outcome: Fetch<SearchResponse>)
    requires Storage.GetLastSearch(store) != "" && IsBlank(Storage.GetLastSearch(store))
    ensures
      var r := MountSearch(Init(store), store, outcome);
      && r.call == None && r.state.movies == []
      && Storage.GetLastSearch(r.store) == ""
      && r.state.searchQuery == Storage.GetLastSearch(store)
  {
  }

  // ---------------------------------------------------------------------------------------
  // Trending, details and genres

  /** `fetchTrendingMovies(page)`: on success the trending list is replaced; the shown list,
      the caches and the page counters are never touched. */
  function FetchTrendingMovies(s: State, store: Storage.Store, page: int,
                               outcome: Fetch<SearchResponse>): (r: Step)
    ensures r.call == Some(Api.TrendingMovies(page)) && r.store == store && !r.state.loading
    ensures outcome.Ok? ==> r.state == s.(trendingMovies := outcome.value.results, loading := false, error := None)
    ensures outcome.Err? ==> r.state == s.(loading := false, error := Some(TrendingError))
  {
    var call := Some(Api.TrendingMovies(page));
    match outcome
    case Ok(response) => Step(s.(trendingMovies := response.results, loading := false, error := None), store, call)
    case Err => Step(s.(loading := false, error := Some(TrendingError)), store, call)
  }

  /** `fetchMovieDetails(id)`: on success the selected movie is replaced; on failure it is
      kept and the error set. Nothing but the selected movie, loading and the error changes. */
  function FetchMovieDetails(s: State, store: Storage.Store, id: int, outcome: Fetch<MovieDetails>): (r: Step)
    ensures r.call == Some(Api.MovieDetails(id)) && r.store == store && !r.state.loading
    ensures r.state.movies == s.movies && r.state.filteredMovies == s.filteredMovies
    ensures outcome.Ok? ==> r.state.selectedMovie == Some(outcome.value) && r.state.error == None
    ensures outcome.Err? ==> r.state.selectedMovie == s.selectedMovie && r.state.error == Some(DetailsError)
    ensures outcome.Ok? ==> r.state == s.(selectedMovie := Some(outcome.value), loading := false, error := None)
    ensures outcome.Err? ==> r.state == s.(loading := false, error := Some(DetailsError))
  {
    var call := Some(Api.MovieDetails(id));
    match outcome
    case Ok(details) => Step(s.(selectedMovie := Some(details), loading := false, error := None), store, call)
    case Err => Step(s.(loading := false, error := Some(DetailsError)), store, call)
  }

  /** The genre list loaded on mount; a failure is only logged and changes nothing. */
  function LoadGenres(s: State, store: Storage.Store, outcome: Fetch<seq<Genre>>): (r: Step)
    ensures r.call == Some(Api.Genres) && r.store == store
    ensures outcome.Ok? ==> r.state == s.(genres := outcome.value)
    ensures outcome.Err? ==> r.state == s
  {
    match outcome
    case Ok(genres) => Step(s.(genres := genres), store, Some(Api.Genres))
    case Err => Step(s, store, Some(Api.Genres))
  }

  // ---------------------------------------------------------------------------------------
  // Favourites

  /** `checkIsFavorite(id)`: membership in the in-memory list. */
  function CheckIsFavorite(s: State, id: int): (r: bool)
    ensures r <==> exists i :: 0 <= i < |s.favorites| && s.favorites[i] == id
  {
    id in s.favorites
  }

  /** With memory and store in step, the in-memory test agrees with the stored one. */
  lemma FavoriteChecksAgree(s: State, store: Storage.Store, id: int)
    requires InSync(s, store)
    ensures CheckIsFavorite(s, id) <==> Storage.IsFavorite(store, id)
  {
  }

  /** `toggleFavorite(id)`: if the store lists `id` it is removed from the store and from
      memory, otherwise appended to both. In-memory and stored lists stay equal and
      duplicate-free, and membership flips. */
  function ToggleFavorite(s: State, store: Storage.Store, id: int): (r: Step)
    ensures r.call == None
    ensures r.state == s.(favorites := r.state.favorites)
    ensures Storage.IsFavorite(store, id) ==>
              r.store == Storage.RemoveFavorite(store, id) && r.state.favorites == Without(s.favorites, id)
    ensures !Storage.IsFavorite(store, id) ==>
              r.store == Storage.AddFavorite(store, id) && r.state.favorites == s.favorites + [id]
    ensures InSync(s, store) ==> InSync(r.state, r.store)
    ensures InSync(s, store) ==> (CheckIsFavorite(r.state, id) <==> !CheckIsFavorite(s, id))
    ensures InSync(s, store) && NoDup(s.favorites) ==> NoDup(r.state.favorites)
  {
    if Storage.IsFavorite(store, id) then
      WithoutNoDupIf(s.favorites, id);
      Step(s.(favorites := Without(s.favorites, id)), Storage.RemoveFavorite(store, id), None)
    else
      SnocNoDupIf(s.favorites, id);
      Step(s.(favorites := s.favorites + [id]), Storage.AddFavorite(store, id), None)
  }

  /** `WithoutNoDup` in the conditional form the toggle's branches need. */
  lemma WithoutNoDupIf(s: seq<int>, id: int)
    ensures NoDup(s) ==> NoDup(Without(s, id))
  {
    if NoDup(s) {
      WithoutNoDup(s, id);
    }
  }

  /** `SnocNoDup` in the conditional form the toggle's branches need. */
  lemma SnocNoDupIf(s: seq<int>, id: int)
    ensures NoDup(s) && id !in s ==> NoDup(s + [id])
  {
    if NoDup(s) && id !in s {
      SnocNoDup(s, id);
    }
  }

  /** Toggling an id that is not a favourite twice restores the exact list, in memory and
      in the store. */
  lemma ToggleTwice(s: State, store: Storage.Store, id: int)
    requires InSync(s, store) && id !in s.favorites
    ensures
      var once := ToggleFavorite(s, store, id);
      var twice := ToggleFavorite(once.state, once.store, id);
      twice.state == s && Storage.GetFavorites(twice.store) == Storage.GetFavorites(store)
  {
    WithoutAppended(s.favorites, id);
  }
}

=== FILE: movie_details.dfy ===
/** The movie details page: which video is embedded as the trailer, how the runtime is
    written, and the favourite toggle for the displayed movie. */
module MovieDetailsPage {
  import opened Wrappers
  import opened Types
  import opened Seqs
  import opened Text
  import Storage
  import MovieContext

  predicate IsYouTube(v: Video) {
    v.site == "YouTube"
  }

  predicate IsYouTubeTrailer(v: Video) {
    v.videoType == "Trailer" && IsYouTube(v)
  }

  predicate IsOfficialTrailer(v: Video) {
    IsYouTubeTrailer(v) && v.official
  }

  /** The three tests of `getTrailer` as function values, for `find`. */
  const YouTube: Video -> bool := v => IsYouTube(v)
  const Trailer: Video -> bool := v => IsYouTubeTrailer(v)
  const OfficialTrailer: Video -> bool := v => IsOfficialTrailer(v)

  /** `getTrailer`: the first official YouTube trailer, else the first YouTube trailer,
      else the first YouTube video of any type, else nothing. */
  function GetTrailer(videos: seq<Video>): (r: Option<Video>)
    ensures r.Some? ==> r.value in videos && IsYouTube(r.value)
    ensures r.None? <==> forall i :: 0 <= i < |videos| ==> !IsYouTube(videos[i])
    ensures forall k :: 0 <= k < |videos| && IsOfficialTrailer(videos[k]) && IsFirst(OfficialTrailer, videos, k) ==>
              r == Some(videos[k])
    ensures (forall i :: 0 <= i < |videos| ==> !IsOfficialTrailer(videos[i])) ==>
              forall k :: 0 <= k < |videos| && IsYouTubeTrailer(videos[k]) && IsFirst(Trailer, videos, k) ==>
                r == Some(videos[k])
    ensures (forall i :: 0 <= i < |videos| ==> !IsYouTubeTrailer(videos[i])) ==>
              forall k :: 0 <= k < |videos| && IsYouTube(videos[k]) && IsFirst(YouTube, videos, k) ==>
                r == Some(videos[k])
  {
    FindFirstEach(OfficialTrailer, videos);
    FindFirstEach(Trailer, videos);
    FindFirstEach(YouTube, videos);
    var official := FindFirst(OfficialTrailer, videos);
    var anyTrailer := FindFirst(Trailer, videos);
    var anyVideo := FindFirst(YouTube, videos);
    if official.Some? then official else if anyTrailer.Some? then anyTrailer else anyVideo
  }

  /** A runtime split into the hours and minutes the page prints. */
  datatype Duration = Duration(hours: int, minutes: int)

  /** JavaScript's `%`: the remainder takes the sign of the dividend. */
  function JsRemainder(a: int, b: int): (r: int)
    requires b > 0
    ensures a >= 0 ==> 0 <= r < b
    ensures a < 0 ==> -b < r <= 0
    ensures a >= 0 ==> r == a % b
    ensures a < 0 ==> r == -((-a) % b)
  {
    if a >= 0 then a % b else -((-a) % b)
  }

  /** The runtime badge: absent when the runtime is 0, otherwise `Math.floor(runtime / 60)`
      hours and `runtime % 60` minutes. For a positive runtime they add back up to it. */
  function RuntimeShown(runtime: int): (r: Option<Duration>)
    ensures r.None? <==> runtime == 0
    ensures runtime > 0 ==>
              && r.value.hours * 60 + r.value.minutes == runtime
              && 0 <= r.value.minutes < 60 && r.value.hours >= 0
    ensures runtime < 0 ==> -60 < r.value.minutes <= 0 && r.value.hours < 0
  {
    if runtime == 0 then None
    else Some(Duration(runtime / 60, JsRemainder(runtime, 60)))
  }

  /** The badge text, `<h>h <m>m`: the hours' digits, `h `, the minutes' digits, `m`. For
      non-negative numbers the two digit runs read back as the hours and the minutes. */
  function RuntimeText(d: Duration): (r: string)
    ensures var h := |IntToString(d.hours)|;
            && h + 3 < |r| && r[h..h + 2] == "h " && r[|r| - 1] == 'm'
            && (d.hours >= 0 ==> DecimalValue(r[..h]) == d.hours)
            && (d.minutes >= 0 ==> DecimalValue(r[h + 2..|r| - 1]) == d.minutes)
  {
    var hours := IntToString(d.hours);
    var minutes := IntToString(d.minutes);
    var r := hours + "h " + minutes + "m";
    assert r[..|hours|] == hours;
    assert r[|hours|..|hours| + 2] == "h ";
    assert r[|hours| + 2..|r| - 1] == minutes;
    r
  }

  /** A negative runtime (which the service does not send) would not add back up: -61
      minutes is written as -2 hours and -1 minute. */
  lemma NegativeRuntime()
    ensures RuntimeShown(-61) == Some(Duration(-2, -1))
    ensures -2 * 60 + -1 != -61
  {
  }

  /** The heart's state: false for the id 0 (also what a missing route id parses to),
      otherwise the coordinator's membership test. */
  function FavoriteFlag(s: MovieContext.State, movieId: int): (r: bool)
    ensures movieId == 0 ==> !r
    ensures movieId != 0 ==> (r <==> movieId in s.favorites)
  {
    if movieId != 0 then MovieContext.CheckIsFavorite(s, movieId) else false
  }

  /** A click on the heart. The heart shows the state of the route's id, but the click
      toggles the id of the movie the coordinator holds as selected. When the two agree
      (and memory and store are in step) the heart flips; when they differ the click
      changes another movie's membership and the heart stays as it was. */
  function HeartClick(s: MovieContext.State, store: Storage.Store, routeId: int): (r: MovieContext.Step)
    requires s.selectedMovie.Some?
    ensures r == MovieContext.ToggleFavorite(s, store, s.selectedMovie.value.movie.id)
    ensures MovieContext.InSync(s, store) && routeId == s.selectedMovie.value.movie.id && routeId != 0 ==>
              (FavoriteFlag(r.state, routeId) <==> !FavoriteFlag(s, routeId))
    ensures routeId != s.selectedMovie.value.movie.id ==>
              FavoriteFlag(r.state, routeId) == FavoriteFlag(s, routeId)
  {
    MovieContext.ToggleFavorite(s, store, s.selectedMovie.value.movie.id)
  }
}

=== FILE: seqs.dfy ===
/** Sequence helpers standing in for `Array.prototype.filter`, `find` and `includes`. */
module Seqs {
  import opened Wrappers

  /** `a` can be obtained from `b` by deleting elements: `a` keeps `b`'s relative order. */
  predicate IsSubsequence<T(==)>(a: seq<T>, b: seq<T>)
    decreases |b|
  {
    if |a| == 0 then true
    else if |b| == 0 then false
    else (a[0] == b[0] && IsSubsequence(a[1..], b[1..])) || IsSubsequence(a, b[1..])
  }

  /** Every sequence is a subsequence of itself. */
  lemma {:induction false} SubsequenceRefl<T>(s: seq<T>)
    ensures IsSubsequence(s, s)
    decreases |s|
  {
    if |s| > 0 {
      SubsequenceRefl(s[1..]);
    }
  }

  /** No element occurs twice. */
  predicate NoDup<T(==)>(s: seq<T>) {
    forall i, j :: 0 <= i < j < |s| ==> s[i] != s[j]
  }

  /** `s.filter(p)`: the elements of `s` that satisfy `p`, in their original order. */
  function Filter<T(==,!new)>(p: T -> bool, s: seq<T>): (r: seq<T>)
    ensures |r| <= |s|
    ensures forall x :: x in r <==> x in s && p(x)
    ensures IsSubsequence(r, s)
    decreases |s|
  {
    if |s| == 0 then []
    else if p(s[0]) then [s[0]] + Filter(p, s[1..])
    else Filter(p, s[1..])
  }

  /** `s.filter(x => x !== v)`: every occurrence of `v` removed. */
  function Without<T(==,!new)>(s: seq<T>, v: T): (r: seq<T>)
    ensures v !in r
    ensures forall x :: x != v ==> (x in r <==> x in s)
    ensures forall x :: x != v ==> multiset(r)[x] == multiset(s)[x]
    ensures IsSubsequence(r, s)
  {
    FilterCountAll(Differs(v), s);
    Filter(Differs(v), s)
  }

  /** The test `x => x !== v`. */
  function Differs<T(==)>(v: T): T -> bool {
    x => x != v
  }

  /** Removal keeps every occurrence of every other element. */
  lemma WithoutCount<T(!new)>(s: seq<T>, v: T, x: T)
    requires x != v
    ensures multiset(Without(s, v))[x] == multiset(s)[x]
  {
    FilterCount(Differs(v), s, x);
  }

  /** Removal keeps a duplicate-free sequence duplicate-free. */
  lemma WithoutNoDup<T(!new)>(s: seq<T>, v: T)
    requires NoDup(s)
    ensures NoDup(Without(s, v))
  {
    FilterNoDup(Differs(v), s);
  }

  /** Appending an absent element and removing it again gives back the original sequence. */
  lemma WithoutAppended<T(!new)>(s: seq<T>, v: T)
    requires v !in s
    ensures Without(s + [v], v) == s
  {
    FilterConcat(Differs(v), s, [v]);
    assert forall i :: 0 <= i < |s| ==> Differs(v)(s[i]);
    FilterKeepsAll(Differs(v), s);
  }

  /** Filtering keeps every occurrence of each accepted element and none of a rejected one. */
  lemma {:induction false} FilterCount<T(!new)>(p: T -> bool, s: seq<T>, x: T)
    ensures multiset(Filter(p, s))[x] == if p(x) then multiset(s)[x] else 0
    decreases |s|
  {
    if |s| > 0 {
      FilterCount(p, s[1..], x);
      assert s == [s[0]] + s[1..];
      assert multiset(s) == multiset{s[0]} + multiset(s[1..]);
      if p(s[0]) {
        assert multiset(Filter(p, s)) == multiset{s[0]} + multiset(Filter(p, s[1..]));
      }
    }
  }

  /** `FilterCount` for every element at once. */
  lemma FilterCountAll<T(!new)>(p: T -> bool, s: seq<T>)
    ensures forall x :: multiset(Filter(p, s))[x] == if p(x) then multiset(s)[x] else 0
  {
    forall x ensures multiset(Filter(p, s))[x] == if p(x) then multiset(s)[x] else 0 {
      FilterCount(p, s, x);
    }
  }

  /** Filtering distributes over concatenation: a page appended before filtering is the
      same as filtering each part and appending. */
  lemma {:induction false} FilterConcat<T(!new)>(p: T -> bool, a: seq<T>, b: seq<T>)
    ensures Filter(p, a + b) == Filter(p, a) + Filter(p, b)
    decreases |a|
  {
    if |a| == 0 {
      assert a + b == b;
    } else {
      assert (a + b)[0] == a[0];
      assert (a + b)[1..] == a[1..] + b;
      FilterConcat(p, a[1..], b);
    }
  }

  /** Filtering a sequence whose every element is accepted changes nothing. */
  lemma {:induction false} FilterKeepsAll<T(!new)>(p: T -> bool, s: seq<T>)
    requires forall i :: 0 <= i < |s| ==> p(s[i])
    ensures Filter(p, s) == s
    decreases |s|
  {
    if |s| > 0 {
      FilterKeepsAll(p, s[1..]);
      assert s == [s[0]] + s[1..];
    }
  }

  /** Filtering a sequence none of whose elements is accepted leaves nothing. */
  lemma FilterDropsAll<T(!new)>(p: T -> bool, s: seq<T>)
    requires forall i :: 0 <= i < |s| ==> !p(s[i])
    ensures Filter(p, s) == []
  {
  }

  /** Filtering twice with the same test is filtering once. */
  lemma FilterIdempotent<T(!new)>(p: T -> bool, s: seq<T>)
    ensures Filter(p, Filter(p, s)) == Filter(p, s)
  {
    var r := Filter(p, s);
    assert forall i :: 0 <= i < |r| ==> r[i] in r;
    FilterKeepsAll(p, r);
  }

  /** Filtering a duplicate-free sequence yields a duplicate-free sequence. */
  lemma {:induction false} FilterNoDup<T(!new)>(p: T -> bool, s: seq<T>)
    requires NoDup(s)
    ensures NoDup(Filter(p, s))
    decreases |s|
  {
    if |s| > 0 {
      assert NoDup(s[1..]) by {
        forall i, j | 0 <= i < j < |s[1..]| ensures s[1..][i] != s[1..][j] {
          assert s[1..][i] == s[i + 1] && s[1..][j] == s[j + 1];
        }
      }
      FilterNoDup(p, s[1..]);
      if p(s[0]) {
        var t := Filter(p, s[1..]);
        assert s[0] !in s[1..] by {
          forall k | 0 <= k < |s[1..]| ensures s[1..][k] != s[0] {
            assert s[1..][k] == s[k + 1];
          }
        }
        ConsNoDup(s[0], t);
      }
    }
  }

  /** Putting an absent element in front keeps a sequence duplicate-free. */
  lemma ConsNoDup<T>(x: T, t: seq<T>)
    requires NoDup(t) && x !in t
    ensures NoDup([x] + t)
  {
    var s := [x] + t;
    forall i, j | 0 <= i < j < |s| ensures s[i] != s[j] {
      assert s[j] == t[j - 1];
      if i > 0 {
        assert s[i] == t[i - 1];
      }
    }
  }

  /** Appending an absent element keeps a sequence duplicate-free. */
  lemma SnocNoDup<T>(t: seq<T>, x: T)
    requires NoDup(t) && x !in t
    ensures NoDup(t + [x])
  {
    var s := t + [x];
    forall i, j | 0 <= i < j < |s| ensures s[i] != s[j] {
      assert s[i] == t[i];
      if j < |t| {
        assert s[j] == t[j];
      }
    }
  }

  /** `s.find(p)`: the first element satisfying `p`, if there is one. */
  function FindFirst<T>(p: T -> bool, s: seq<T>): (r: Option<T>)
    ensures r.None? <==> forall i :: 0 <= i < |s| ==> !p(s[i])
    ensures r.Some? ==> exists i :: 0 <= i < |s| && s[i] == r.value && p(s[i]) && IsFirst(p, s, i)
    decreases |s|
  {
    if |s| == 0 then None
    else if p(s[0]) then (assert IsFirst(p, s, 0); Some(s[0]))
    else
      var r := FindFirst(p, s[1..]);
      assert r.Some? ==> exists i :: 0 <= i < |s| && s[i] == r.value && p(s[i]) && IsFirst(p, s, i) by {
        if r.Some? {
          var i :| 0 <= i < |s[1..]| && s[1..][i] == r.value && p(s[1..][i]) && IsFirst(p, s[1..], i);
          assert s[i + 1] == r.value && IsFirst(p, s, i + 1);
        }
      }
      r
  }

  /** No element before index `i` satisfies `p`. */
  predicate IsFirst<T>(p: T -> bool, s: seq<T>, i: int)
    requires 0 <= i <= |s|
  {
    forall j :: 0 <= j < i ==> !p(s[j])
  }

  /** When `s[k]` is the first element satisfying `p`, `find` returns exactly it. */
  lemma FindFirstIs<T>(p: T -> bool, s: seq<T>, k: int)
    requires 0 <= k < |s| && p(s[k]) && IsFirst(p, s, k)
    ensures FindFirst(p, s) == Some(s[k])
  {
  }

  /** `find` returns the first element satisfying `p`, wherever it is. */
  lemma FindFirstEach<T>(p: T -> bool, s: seq<T>)
    ensures forall k :: 0 <= k < |s| && p(s[k]) && IsFirst(p, s, k) ==> FindFirst(p, s) == Some(s[k])
  {
    forall k | 0 <= k < |s| && p(s[k]) && IsFirst(p, s, k) ensures FindFirst(p, s) == Some(s[k]) {
      FindFirstIs(p, s, k);
    }
  }
}

=== FILE: storage.dfy ===
/** The persisted key/value store behind favourites, last search, user and theme.
    The browser store holds JSON text; here each key holds a typed value. */
module Storage {
  import opened Wrappers
  import opened Types
  import opened Seqs

  /** A stored value: a list of movie ids, a plain string, or a user record. */
  datatype Value = IdList(ids: seq<int>) | Text(text: string) | UserRecord(user: User)

  /** The whole store, including keys other applications may have written. */
  type Store = map<string, Value>

  const FavoritesKey := "movie-explorer-favorites"
  const LastSearchKey := "movie-explorer-last-search"
  const UserKey := "movie-explorer-user"
  const ThemeKey := "movie-explorer-theme"

  /** `a` and `b` hold the same entries at every key other than `key`. */
  ghost predicate SameExcept(a: Store, b: Store, key: string) {
    forall k :: k != key ==> (k in a <==> k in b) && (k in a && k in b ==> a[k] == b[k])
  }

  /** `getFavorites()`: the stored id list, or `[]` when the key is absent. */
  function GetFavorites(st: Store): (r: seq<int>)
    ensures FavoritesKey !in st ==> r == []
    ensures FavoritesKey in st && st[FavoritesKey].IdList? ==> r == st[FavoritesKey].ids
  {
    if FavoritesKey in st && st[FavoritesKey].IdList? then st[FavoritesKey].ids else []
  }

  /** `isFavorite(id)`: membership in the stored list. */
  function IsFavorite(st: Store, id: int): (r: bool)
    ensures r <==> FavoritesKey in st && st[FavoritesKey].IdList? && id in st[FavoritesKey].ids
  {
    id in GetFavorites(st)
  }

  /** `addFavorite(id)`: append `id` to the stored list unless it is already there;
      nothing is written in that case. */
  function AddFavorite(st: Store, id: int): (r: Store)
    ensures IsFavorite(st, id) ==> r == st
    ensures !IsFavorite(st, id) ==> GetFavorites(r) == GetFavorites(st) + [id]
    ensures IsFavorite(r, id)
    ensures SameExcept(st, r, FavoritesKey)
  {
    var favs := GetFavorites(st);
    if id !in favs then st[FavoritesKey := IdList(favs + [id])] else st
  }

  /** `removeFavorite(id)`: rewrite the stored list without any occurrence of `id`. */
  function RemoveFavorite(st: Store, id: int): (r: Store)
    ensures !IsFavorite(r, id)
    ensures forall x :: x != id ==> (x in GetFavorites(r) <==> x in GetFavorites(st))
    ensures IsSubsequence(GetFavorites(r), GetFavorites(st))
    ensures SameExcept(st, r, FavoritesKey)
  {
    st[FavoritesKey := IdList(Without(GetFavorites(st), id))]
  }

  /** Adding the same id twice is adding it once. */
  lemma AddFavoriteIdempotent(st: Store, id: int)
    ensures AddFavorite(AddFavorite(st, id), id) == AddFavorite(st, id)
  {
  }

  /** Removal keeps every occurrence of every other id, in order: the new list is exactly
      the old one with the occurrences of `id` deleted. */
  lemma RemoveFavoriteKeepsOthers(st: Store, id: int, x: int)
    requires x != id
    ensures multiset(GetFavorites(RemoveFavorite(st, id)))[x] == multiset(GetFavorites(st))[x]
  {
    WithoutCount(GetFavorites(st), id, x);
  }

  /** Adding then storing keeps a duplicate-free list duplicate-free, and so does removing. */
  lemma FavoritesStayDistinct(st: Store, id: int)
    requires NoDup(GetFavorites(st))
    ensures NoDup(GetFavorites(AddFavorite(st, id)))
    ensures NoDup(GetFavorites(RemoveFavorite(st, id)))
  {
    if !IsFavorite(st, id) {
      SnocNoDup(GetFavorites(st), id);
    }
    WithoutNoDup(GetFavorites(st), id);
  }

  /** `getLastSearch()`: the stored string, or `''` when the key is absent. */
  function GetLastSearch(st: Store): (r: string)
    ensures LastSearchKey !in st ==> r == ""
    ensures LastSearchKey in st && st[LastSearchKey].Text? ==> r == st[LastSearchKey].text
  {
    if LastSearchKey in st && st[LastSearchKey].Text? then st[LastSearchKey].text else ""
  }

  /** `saveLastSearch(query)`. */
  function SaveLastSearch(st: Store, query: string): (r: Store)
    ensures GetLastSearch(r) == query
    ensures SameExcept(st, r, LastSearchKey)
  {
    st[LastSearchKey := Text(query)]
  }

  /** `saveUser(user)`. */
  function SaveUser(st: Store, user: User): (r: Store)
    ensures GetUser(r) == Some(user)
    ensures SameExcept(st, r, UserKey)
  {
    st[UserKey := UserRecord(user)]
  }

  /** `getUser()`: the stored user, or null when the key is absent. */
  function GetUser(st: Store): (r: Option<User>)
    ensures UserKey !in st ==> r == None
    ensures UserKey in st && st[UserKey].UserRecord? ==> r == Some(st[UserKey].user)
  {
    if UserKey in st && st[UserKey].UserRecord? then Some(st[UserKey].user) else None
  }

  /** `removeUser()`: delete the user key. */
  function RemoveUser(st: Store): (r: Store)
    ensures UserKey !in r
    ensures GetUser(r) == None
    ensures SameExcept(st, r, UserKey)
  {
    st - {UserKey}
  }

  /** `getTheme()`: the stored theme name, `'dark'` when the key is absent or empty. */
  function GetTheme(st: Store): (r: string)
    ensures ThemeKey !in st ==> r == "dark"
    ensures ThemeKey in st && st[ThemeKey].Text? && st[ThemeKey].text != "" ==> r == st[ThemeKey].text
    ensures !(ThemeKey in st && st[ThemeKey].Text? && st[ThemeKey].text != "") ==> r == "dark"
    ensures r != ""
  {
    if ThemeKey in st && st[ThemeKey].Text? && st[ThemeKey].text != "" then st[ThemeKey].text
    else "dark"
  }

  /** `saveTheme(theme)`. */
  function SaveTheme(st: Store, theme: string): (r: Store)
    ensures theme != "" ==> GetTheme(r) == theme
    ensures SameExcept(st, r, ThemeKey)
  {
    st[ThemeKey := Text(theme)]
  }
}

=== FILE: text.dfy ===
/** The string operations the code relies on: `trim`, `toLowerCase`, `includes`,
    number-to-text conversion in template literals, and `Array.prototype.join`. */
module Text {

  /** The characters JavaScript's `String.prototype.trim` strips: the WhiteSpace and
      LineTerminator code points of ECMAScript. */
  predicate IsSpace(c: char) {
    || c == '\t' || c == '\n' || c == '\U{000B}' || c == '\U{000C}' || c == '\r' || c == ' '
    || c == '\U{00A0}' || c == '\U{1680}' || ('\U{2000}' <= c <= '\U{200A}')
    || c == '\U{2028}' || c == '\U{2029}' || c == '\U{202F}' || c == '\U{205F}'
    || c == '\U{3000}' || c == '\U{FEFF}'
  }

  /** Every character of `s` is whitespace (vacuously true of the empty string). */
  predicate AllSpace(s: string) {
    forall i :: 0 <= i < |s| ==> IsSpace(s[i])
  }

  /** The index of the first non-whitespace character of `s` at or after `i`, or `|s|`. */
  function SkipSpaces(s: string, i: nat): (k: nat)
    requires i <= |s|
    ensures i <= k <= |s|
    ensures forall m :: i <= m < k ==> IsSpace(s[m])
    ensures k < |s| ==> !IsSpace(s[k])
    decreases |s| - i
  {
    if i < |s| && IsSpace(s[i]) then SkipSpaces(s, i + 1) else i
  }

  /** The index just after the last non-whitespace character of `s` in `[lo, j)`, or `lo`. */
  function BackSpaces(s: string, lo: nat, j: nat): (k: nat)
    requires lo <= j <= |s|
    ensures lo <= k <= j
    ensures forall m :: k <= m < j ==> IsSpace(s[m])
    ensures k > lo ==> !IsSpace(s[k - 1])
    decreases j
  {
    if j > lo && IsSpace(s[j - 1]) then BackSpaces(s, lo, j - 1) else j
  }

  /** `r` is `s` with a whitespace-only prefix and a whitespace-only suffix cut off. */
  predicate SpaceBounded(s: string, r: string) {
    exists i | 0 <= i <= |s| - |r| :: SpaceBoundedAt(s, r, i)
  }

  /** `r` sits in `s` at index `i`, with only whitespace before and after it. */
  predicate SpaceBoundedAt(s: string, r: string, i: int) {
    && 0 <= i <= |s| - |r|
    && r == s[i..i + |r|]
    && (forall m :: 0 <= m < i ==> IsSpace(s[m]))
    && (forall m :: i + |r| <= m < |s| ==> IsSpace(s[m]))
  }

  /** `s.trim()`: the slice of `s` left once its leading and trailing whitespace is cut. */
  function Trim(s: string): (r: string)
    ensures SpaceBounded(s, r)
    ensures |r| == 0 <==> AllSpace(s)
    ensures |r| > 0 ==> !IsSpace(r[0]) && !IsSpace(r[|r| - 1])
  {
    var i := SkipSpaces(s, 0);
    var k := BackSpaces(s, i, |s|);
    var r := s[i..k];
    assert r == s[i..i + |r|];
    assert SpaceBoundedAt(s, r, i);
    r
  }

  /** Whether `s.trim()` is falsy, i.e. the empty string. */
  predicate IsBlank(s: string) {
    |Trim(s)| == 0
  }

  /** ASCII case folding of one character. */
  function LowerChar(c: char): char {
    if 'A' <= c <= 'Z' then (c as int + 32) as char else c
  }

  /** `s.toLowerCase()`, restricted to ASCII letters. */
  function Lower(s: string): (r: string)
    ensures |r| == |s|
    ensures forall i :: 0 <= i < |s| ==> !('A' <= r[i] <= 'Z')
    ensures forall i :: 0 <= i < |s| && !('A' <= s[i] <= 'Z') ==> r[i] == s[i]
    ensures forall i :: 0 <= i < |s| && 'A' <= s[i] <= 'Z' ==> r[i] as int == s[i] as int + 32
    decreases |s|
  {
    if |s| == 0 then [] else [LowerChar(s[0])] + Lower(s[1..])
  }

  /** Lower-casing an already lower-cased string changes nothing. */
  lemma LowerIdempotent(s: string)
    ensures Lower(Lower(s)) == Lower(s)
  {
  }

  /** `hay.includes(needle)`: `needle` occurs in `hay` at some index. */
  predicate Includes(hay: string, needle: string) {
    exists i | 0 <= i <= |hay| - |needle| :: OccursAt(hay, needle, i)
  }

  /** `needle` is the slice of `hay` starting at index `i`. */
  predicate OccursAt(hay: string, needle: string, i: int) {
    0 <= i <= |hay| - |needle| && hay[i..i + |needle|] == needle
  }

  /** Every string includes the empty string, and itself. */
  lemma IncludesTrivial(s: string)
    ensures Includes(s, "")
    ensures Includes(s, s)
  {
    assert OccursAt(s, "", 0);
    assert OccursAt(s, s, 0);
  }

  /** The decimal digit for `d`. */
  function DigitChar(d: nat): char
    requires d < 10
  {
    "0123456789"[d]
  }

  /** The value of a decimal digit character. */
  function DigitValue(c: char): nat {
    if '0' <= c <= '9' then c as nat - '0' as nat else 0
  }

  /** The value of a string of decimal digits, most significant first. */
  function DecimalValue(s: string): nat
    decreases |s|
  {
    if |s| == 0 then 0 else 10 * DecimalValue(s[..|s| - 1]) + DigitValue(s[|s| - 1])
  }

  /** The decimal text of a natural number, as a template literal renders it. */
  function NatToString(n: nat): (r: string)
    ensures |r| > 0
    ensures forall i :: 0 <= i < |r| ==> '0' <= r[i] <= '9'
    ensures |r| > 1 ==> r[0] != '0'
    decreases n
  {
    if n < 10 then [DigitChar(n)] else NatToString(n / 10) + [DigitChar(n % 10)]
  }

  /** Reading back the decimal text of `n` gives `n`. */
  lemma {:induction false} NatToStringRoundTrip(n: nat)
    ensures DecimalValue(NatToString(n)) == n
    decreases n
  {
    var r := NatToString(n);
    if n >= 10 {
      NatToStringRoundTrip(n / 10);
      assert r[..|r| - 1] == NatToString(n / 10);
    }
  }

  /** The decimal text of an integer, with a leading `-` for negatives. */
  function IntToString(n: int): (r: string)
    ensures |r| > 0
    ensures (r[0] == '-') <==> n < 0
    ensures n >= 0 ==> DecimalValue(r) == n
    ensures n < 0 ==> DecimalValue(r[1..]) == -n
  {
    NatToStringRoundTrip(if n < 0 then -n else n);
    if n < 0 then "-" + NatToString(-n) else NatToString(n)
  }

  /** `parts.join(sep)`. */
  function Join(parts: seq<string>, sep: string): (r: string)
    ensures |parts| == 0 ==> r == ""
    ensures |parts| == 1 ==> r == parts[0]
    ensures |parts| > 1 ==> parts[0] + sep <= r
    decreases |parts|
  {
    if |parts| == 0 then ""
    else if |parts| == 1 then parts[0]
    else parts[0] + sep + Join(parts[1..], sep)
  }

  /** Joining one more part appends the separator and that part, so a join is its parts
      in order with the separator between each neighbouring pair. */
  lemma {:induction false} JoinSnoc(parts: seq<string>, p: string, sep: string)
    requires |parts| > 0
    ensures Join(parts + [p], sep) == Join(parts, sep) + sep + p
    decreases |parts|
  {
    var q := parts + [p];
    assert q[0] == parts[0];
    if |parts| == 1 {
      assert q[1..] == [p];
      assert Join(q[1..], sep) == p;
    } else {
      assert q[1..] == parts[1..] + [p];
      JoinSnoc(parts[1..], p, sep);
      var rest := Join(parts[1..], sep);
      assert Join(q, sep) == parts[0] + sep + (rest + sep + p);
      assert Join(parts, sep) == parts[0] + sep + rest;
    }
  }

  /** Two and three parts are joined with the separator between neighbours. */
  lemma JoinFew(parts: seq<string>, sep: string)
    ensures |parts| == 2 ==> Join(parts, sep) == parts[0] + sep + parts[1]
    ensures |parts| == 3 ==> Join(parts, sep) == parts[0] + sep + parts[1] + sep + parts[2]
  {
    if |parts| == 2 {
      JoinSnoc(parts[..1], parts[1], sep);
      assert parts[..1] + [parts[1]] == parts;
    } else if |parts| == 3 {
      JoinFew(parts[..2], sep);
      JoinSnoc(parts[..2], parts[2], sep);
      assert parts[..2] + [parts[2]] == parts;
    }
  }
}

=== FILE: theme.dfy ===
/** The colour theme: read from the store on mount, flipped by the toggle, and written
    back to the store whenever it changes. */
module Theme {
  import Storage

  /** The theme and the store after an operation. */
  datatype ThemeStep = ThemeStep(theme: string, store: Storage.Store)

  /** The provider mounts: the stored theme, `'dark'` by default, which the effect then
      writes back. */
  function Mount(store: Storage.Store): (r: ThemeStep)
    ensures r.theme == Storage.GetTheme(store)
    ensures Storage.GetTheme(r.store) == r.theme
    ensures Storage.SameExcept(store, r.store, Storage.ThemeKey)
  {
    var theme := Storage.GetTheme(store);
    ThemeStep(theme, Storage.SaveTheme(store, theme))
  }

  /** `prev === 'light' ? 'dark' : 'light'`: anything other than light becomes light. */
  function Flip(theme: string): (r: string)
    ensures theme == "light" ==> r == "dark"
    ensures theme != "light" ==> r == "light"
  {
    if theme == "light" then "dark" else "light"
  }

  /** `toggleTheme()` followed by the effect that saves the new theme. */
  function ToggleTheme(theme: string, store: Storage.Store): (r: ThemeStep)
    ensures r.theme == Flip(theme)
    ensures Storage.GetTheme(r.store) == r.theme
    ensures Storage.SameExcept(store, r.store, Storage.ThemeKey)
  {
    var next := Flip(theme);
    ThemeStep(next, Storage.SaveTheme(store, next))
  }

  /** Toggling twice is the identity on the two themes, and lands on light from anything
      else. */
  lemma ToggleTwice(theme: string)
    ensures theme == "light" || theme == "dark" ==> Flip(Flip(theme)) == theme
    ensures theme != "light" && theme != "dark" ==> Flip(Flip(theme)) == "dark"
  {
  }
}

=== FILE: types.dfy ===
/** The record types of the catalog client: movies, search responses, filter options,
    videos and users, with JavaScript's optional properties made explicit. */
module Types {
  import opened Wrappers

  /** One catalog item as the remote service returns it. */
  datatype Movie = Movie(
    id: int,
    title: string,
    posterPath: string,
    backdropPath: string,
    releaseDate: string,
    voteAverage: real,
    overview: string,
    genreIds: Option<seq<int>>)

  /** A genre of the remote catalog. */
  datatype Genre = Genre(id: int, name: string)

  /** The detail record of one movie: the listing fields plus the ones the details page reads. */
  datatype MovieDetails = MovieDetails(
    movie: Movie,
    genres: seq<Genre>,
    runtime: int,
    tagline: string,
    voteCount: int)

  /** One page of a search, discover or trending listing. */
  datatype SearchResponse = SearchResponse(
    page: int,
    results: seq<Movie>,
    totalPages: int,
    totalResults: int)

  /** One optional property of a filter-options object. The filter panel writes an explicit
      `undefined` when a selection is cleared, so a key can be present without a value. */
  datatype FilterField = Absent | PresentUndefined | Val(value: int) {
    /** The property read as a value: `undefined` unless a number is stored. */
    function Defined(): Option<int> {
      if Val? then Some(value) else None
    }
  }

  /** A filter-options object: optional genre id, release year and minimum rating. */
  datatype FilterOptions = FilterOptions(genre: FilterField, year: FilterField, rating: FilterField)

  /** The empty object `{}`. */
  const NoFilters := FilterOptions(Absent, Absent, Absent)

  /** `Object.keys(f).length > 0`: some property is present, even if it holds `undefined`. */
  predicate HasKeys(f: FilterOptions) {
    !f.genre.Absent? || !f.year.Absent? || !f.rating.Absent?
  }

  /** `Object.values(f).some(v => v !== undefined)`: some property holds a number. */
  predicate SomeDefined(f: FilterOptions) {
    f.genre.Val? || f.year.Val? || f.rating.Val?
  }

  /** The two "filters active" tests agree one way only: a defined value implies a present
      key, and `{}` is the only object with no keys, but an object whose keys all hold
      `undefined` has keys and no defined value. */
  lemma ActivePredicates(f: FilterOptions)
    ensures SomeDefined(f) ==> HasKeys(f)
    ensures HasKeys(f) <==> f != NoFilters
    ensures !SomeDefined(FilterOptions(PresentUndefined, PresentUndefined, PresentUndefined))
    ensures HasKeys(FilterOptions(PresentUndefined, PresentUndefined, PresentUndefined))
  {
  }

  /** One entry of a movie's video list. */
  datatype Video = Video(
    name: string,
    key: string,
    site: string,
    videoType: string,
    official: bool)

  /** A signed-in user; the demo accounts carry an e-mail address, registered ones do not. */
  datatype User = User(id: string, username: string, email: Option<string>)

  /** What the login and register forms submit. */
  datatype Credentials = Credentials(username: string, password: string)
}

=== FILE: wrappers.dfy ===
/** Optional values and remote-call outcomes shared by every module of the model. */
module Wrappers {

  /** A value that may be missing: JavaScript's `undefined` / `null` versus a present value. */
  datatype Option<+T> = None | Some(value: T)

  /** How one remote call settled: the response it resolved with, or a rejection.
      The code modelled never inspects a rejection's payload, so `Err` carries none. */
  datatype Fetch<+T> = Ok(value: T) | Err
}
